=== FILE: README.md ===
# Format-string rewriter of the date-picker documentation

The documentation of the date-picker library shows every code example once, for
all four date libraries it supports (date-fns, luxon, moment, dayjs). A snippet
states its date formats as a small table inside an invocation such as

```
{props.__willBeReplacedGetFormatString({
  moment: 'YYYY-MM-DD',
  dayjs: 'YYYY-MM-DD',
  'date-fns': 'yyyy-MM-dd',
  luxon: 'yyyy-MM-dd',
})}
```

Before the snippet is shown for a given library, `replaceGetFormatStrings`
rewrites each such invocation into the double-quoted format for that library.

- **Finding an invocation.** The rewriter takes the first start marker and the
  first `})}` after it.
- **Reading the table.** Each line that names a library (case-insensitively)
  becomes a key and a value. A later line with the same key wins.
- **Resolving the format.** `cascadeFormats` picks the target library's entry.
  luxon falls back to date-fns and dayjs falls back to moment.
- **Replacing.** The rewriter puts `"<format>"` where the invocation was. It
  repeats until no start marker is left.

The model is written over `seq<char>` with pure functions:

| module | file | contents |
|---|---|---|
| `Wrappers` | `wrappers.dfy` | `Option` and `Result` |
| `Strings` | `strings.dfy` | the JavaScript string operations the rewriter uses: `indexOf`, `includes`, first-occurrence `replace`, a global single-character replace, `trim` with the ECMAScript whitespace set, `split` |
| `Formats` | `formats.dfy` | `cascadeFormats`, and `ChainLookup`, a chain-walk reading of the cascade to compare it against |
| `Snippets` | `snippets.dfy` | the `libRegex` match, one table line, the fold into the table, locating the span, one rewrite step, the loop as a function (`ReplaceAll`) and as a method, and snippets with several invocations |
| `AsWritten` | `aswritten.dfy` | the step exactly as written, using JavaScript's -1 and `slice` semantics, for the unterminated case under Findings |
| `Scenarios` | `scenarios.dfy` | the four-library table above, parsed, resolved for every library and rewritten for moment; tables written on the start marker's own line, with the end marker on the same line and on the next one |

Choices worth knowing when reading the contracts:

**Formats and the cascade**
- A missing table entry is `None`. JavaScript's `||` treats the empty string like a missing entry (`Formats.Truthy`).
- An unresolved format is printed as `undefined` by the template literal (`Snippets.Render`).

**Matching `libRegex`**
- `libRegex` is matched as a leftmost search over its five alternatives.
- The `i` flag is ASCII case folding. Without the `u` flag this is exact for these alternatives: JavaScript's case canonicalisation never maps a character at or above U+0080 into ASCII.
- At most one alternative can match at any position (`Snippets.OneTokenPerPosition`), so the order of the alternatives does not matter.

**The loop**
- Every pass of the model makes the text shorter: the quoted format is shorter than the invocation it replaces (`Snippets.Step`). So the modelled loop always ends, and the text's length is its termination measure. On a terminated invocation the pass as written is the same pass (`AsWritten.AgreesWhenTerminated`), so the source's loop ends on every input where no pass meets a start marker without an end marker after it. That includes a start marker brought in by a resolved format, as the next bullet shows.
- A resolved format can itself hold the start marker. That happens when the table line that sets the entry holds a start marker: the start marker's own line, a later line of a span that holds a second start marker, or a value that spells the marker text. When the end marker is on that line too, the format holds it as well, and the next pass rewrites that text as the source does. For `{props.__willBeReplacedGetFormatString({ moment: 'x' })}` the result for moment is `""undefined""` (`Scenarios.OneLineTwoPasses`). When the end marker is on a later line, the format holds a start marker with no end marker after it. The model then reports `Err(Unterminated)`, and the source loops forever (see Findings, `Scenarios.MarkerLineHangs`).
- An unterminated invocation is reported as `Err(Unterminated)`. What the source does with it depends on where its start marker is:
  - at index 2 or later, the source loops forever (see Findings);
  - at index 0, one pass puts `"undefined"` in place of the marker's first two characters. If no other start marker follows, none is left and the loop stops. If one does, the text is stuck and the loop never ends (`AsWritten.UnterminatedAtStart`);
  - at index 1, the pass replaces the first `{` of the text. If that is the marker's own `{`, the marker is destroyed. If the text starts with `{`, that brace goes instead, and the marker stays unterminated at index 11, from where the loop never ends. The index-1 case has no lemma of its own.
- JavaScript's indices count UTF-16 code units. The model counts `char`s, which are Unicode scalar values. The index thresholds above are the same in both when no character in front of the marker lies outside the Basic Multilingual Plane.

## Model

| member | source | states |
|---|---|---|
| Formats.Cascade | docs/utils/utilsService.ts:16-29 | a resolved format is the entry of one of the keys in the target's fallback chain |
| Formats.CascadeIsChainLookup | docs/utils/utilsService.ts:16-29 | the switch equals walking the fallback chain and taking the first present, non-empty entry, or the last key's entry as it is |
| Formats.CascadeReadsOnlyChain | docs/utils/utilsService.ts:16-29 | two tables that agree on the fallback chain resolve alike: no other entry is ever consulted |
| Formats.CascadeNoFallback | docs/utils/utilsService.ts:17-23 | for date-fns and moment the result is exactly that library's own entry, present or not |
| Formats.CascadeFallback | docs/utils/utilsService.ts:20-25 | luxon (dayjs) takes its own entry when present and non-empty, otherwise the date-fns (moment) entry, which may be absent |
| Formats.CascadeUnknownIsDateFns | docs/utils/utilsService.ts:26-27 | a target outside the four libraries resolves exactly as date-fns does |
| Formats.CascadeEmptyIsMissing | docs/utils/utilsService.ts:21-25 | for luxon and dayjs an empty entry and a missing one give the same result |
| Strings.IndexOfFrom | docs/utils/utilsService.ts:44 | the result is the first occurrence at or after the start; no result means no occurrence there |
| Strings.IndexOf | docs/utils/utilsService.ts:43 | a result exists exactly when the pattern occurs, and it is the first occurrence |
| Strings.IndexOfFromIsFirst | docs/utils/utilsService.ts:43-44 | the search reports any position that is the first occurrence after the start |
| Strings.ReplaceFirstAt | docs/utils/utilsService.ts:62-63 | replacing splices the replacement in at the first occurrence and keeps the text on both sides |
| Strings.ReplaceFirstAbsent | docs/utils/utilsService.ts:68 | replacing a pattern that does not occur leaves the text unchanged |
| Strings.ReplaceSpanAt | docs/utils/utilsService.ts:79 | replacing a slice that starts at the first occurrence of its own prefix replaces that very slice |
| Strings.RemoveChars | docs/utils/utilsService.ts:64 | the result is no longer than the input, holds none of the deleted characters, only characters of the input, and is the input itself when there is nothing to delete |
| Strings.RemoveCharsConcat | docs/utils/utilsService.ts:64 | the global delete works piece by piece over a concatenation |
| Strings.Trim | docs/utils/utilsService.ts:65 | the result is a slice of the input with only whitespace cut away at either end, and it neither starts nor ends with whitespace |
| Strings.TrimPadded | docs/utils/utilsService.ts:65 | trimming whitespace padding off a piece with no whitespace at its ends returns that piece |
| Strings.Split | docs/utils/utilsService.ts:52 | splitting gives at least one piece, and no piece holds the separator |
| Strings.JoinSplit | docs/utils/utilsService.ts:52 | joining the pieces with the separator gives back the text |
| Strings.SplitJoin | docs/utils/utilsService.ts:52 | splitting separator-free lines joined by the separator gives back the lines |
| Strings.CountZero | docs/utils/utilsService.ts:84 | the marker count is zero exactly when `includes` is false |
| Strings.CountAfterSplice | docs/utils/utilsService.ts:79-85 | putting a quoted marker-free value in place of a span that starts at the first marker lowers the marker count |
| Snippets.TokenAt | docs/utils/utilsService.ts:38 | a reported alternative is spelt, up to case, at that position; no report means no alternative matches there |
| Snippets.FirstMatchText | docs/utils/utilsService.ts:38 | the reported text is written in the line at the reported position and is an alternative up to case |
| Snippets.FirstMatchLeftmost | docs/utils/utilsService.ts:38 | no alternative matches between the search start and the reported position |
| Snippets.FirstMatchNone | docs/utils/utilsService.ts:38 | when the search reports nothing, no alternative matches anywhere after its start |
| Snippets.FirstMatch | docs/utils/utilsService.ts:38 | a match exists exactly when some alternative matches somewhere; it is the leftmost one and its text is taken from the line |
| Snippets.LibMatch | docs/utils/utilsService.ts:53-55 | `test` and `match` agree: a match exists exactly when a library name occurs case-insensitively, and it is the leftmost one |
| Snippets.OneTokenPerPosition | docs/utils/utilsService.ts:38 | two alternatives matching at the same position are the same alternative |
| Snippets.NoLibraryIn | docs/utils/utilsService.ts:53 | a line in which no two neighbouring characters begin a library name, and whose last character is not the first letter of one, names no library |
| Snippets.ShortLineNoToken | docs/utils/utilsService.ts:38 | a line shorter than five characters names no library |
| Snippets.NormalizeKeyOnlyDateFns | docs/utils/utilsService.ts:68 | `NormalizeKey` renames only the exact spelling `dateFns` to `date-fns`; every other spelling of a library name is kept as matched |
| Snippets.LineValue | docs/utils/utilsService.ts:61-65 | the value of a line has no quote or comma and no whitespace at either end, and it is shorter than the line by at least the token it names |
| Snippets.ParseLine | docs/utils/utilsService.ts:53-68 | a line is kept exactly when it names a library; a kept line's value is clean and at least five characters shorter than the line |
| Snippets.ParseLineKey | docs/utils/utilsService.ts:55-68 | a kept line's key is its leftmost matched token, renamed only when it reads `dateFns`; its value comes from that token |
| Snippets.TokenRemovedAtMatch | docs/utils/utilsService.ts:60-62 | deleting the first exact occurrence of the matched text deletes it at the match position |
| Snippets.ColonAfterPadding | docs/utils/utilsService.ts:63 | the colon deleted is the first one, right after the padding |
| Snippets.StripPadding | docs/utils/utilsService.ts:64-65 | deleting quotes and commas and then trimming leaves a clean format without its padding |
| Snippets.LeadingTokenMatch | docs/utils/utilsService.ts:55 | a lower-case library name right after padding is the match, at that position |
| Snippets.TableLineValue | docs/utils/utilsService.ts:61-65 | the value of a table line is the bare format |
| Snippets.ParseTableLine | docs/utils/utilsService.ts:54-68 | a line of the documented shape parses to the library name and the bare format |
| Snippets.ParseLines | docs/utils/utilsService.ts:51-69 | each line is parsed on its own and in order, and every kept value is clean |
| Snippets.Fold | docs/utils/utilsService.ts:70-76 | every entry of the table comes from some kept pair |
| Snippets.FoldKeys | docs/utils/utilsService.ts:70-76 | the table has a key exactly when some kept pair has it |
| Snippets.LastWins | docs/utils/utilsService.ts:70-76 | a key's entry is the value of the last kept pair with that key |
| Snippets.BuildMap | docs/utils/utilsService.ts:51-76 | every entry of the table of an invocation is what one of its lines parses to, and every value is clean |
| Snippets.MarkerCharacters | docs/utils/utilsService.ts:39-40 | neither marker holds a double quote, the start marker holds no `}`, the end marker starts with `}` and the start marker with `{` |
| Snippets.NoBraceNoMarker | docs/utils/utilsService.ts:84 | text without `{` holds no start marker |
| Snippets.EndAfterStartMarker | docs/utils/utilsService.ts:43-44 | the end marker found from the start marker begins after the whole start marker |
| Snippets.LocateSpan | docs/utils/utilsService.ts:43-49 | the span runs from the first start marker to the end of the first end marker after it; locating reports a missing invocation exactly when the text holds no start marker |
| Snippets.LocateSpanUnterminated | docs/utils/utilsService.ts:43-49 | locating reports an unterminated invocation exactly when no end marker occurs at or after the first start marker |
| Snippets.LocateSpanFound | docs/utils/utilsService.ts:43-49 | the span is fixed by where the two searches first succeed |
| Snippets.OpensAfterExactly | docs/utils/utilsService.ts:43 | text in front of an invocation "opens" it exactly when the first start marker of the whole text is the invocation's own |
| Snippets.LocateSpanAround | docs/utils/utilsService.ts:43-49 | an invocation whose table holds no `}`, behind text that opens it, is located exactly, whatever follows it |
| Snippets.Resolve | docs/utils/utilsService.ts:51-78 | the resolved format never holds a quote or a comma |
| Snippets.ResolveShorter | docs/utils/utilsService.ts:51-79 | the resolved format is `undefined` or at least five characters shorter than the invocation |
| Snippets.ResolveUnnamed | docs/utils/utilsService.ts:53-79 | an invocation none of whose lines names a library resolves to `undefined`, which `Render` prints for a missing entry |
| Snippets.Step | docs/utils/utilsService.ts:42-80 | a step fails exactly when locating fails, with the same error; otherwise it gives the text before the span, the quoted format and the text after the span, and the result is shorter than the input |
| Snippets.StepShrinksMarkers | docs/utils/utilsService.ts:79-86 | when the format holds no start marker a step succeeds and lowers the marker count |
| Snippets.ReplaceAll | docs/utils/utilsService.ts:82-89 | the loop ends on every input; a result holds no start marker; text without one is returned unchanged; the only error is an unterminated invocation, reported whenever the first one is |
| Snippets.ReplaceAllIdempotent | docs/utils/utilsService.ts:82-89 | rewriting a rewritten text changes nothing |
| Snippets.Passes | docs/utils/utilsService.ts:82-89 | the number of passes the loop makes is at most the length of the text, since every pass shortens it |
| Snippets.PassesThen | docs/utils/utilsService.ts:84-86 | a pass that succeeds is counted, and the loop goes on from its result |
| Snippets.ReplaceAllContinues | docs/utils/utilsService.ts:84-86 | after any successful step the loop carries on from the new text |
| Snippets.ReplaceSingleInvocation | docs/utils/utilsService.ts:42-89 | a snippet with one invocation becomes the surrounding text with the quoted format in its place, whatever braces the text around it holds, as long as no start marker begins ahead of the invocation's own and neither the text after it nor the format holds one; the loop makes exactly one pass |
| Snippets.FirstPass | docs/utils/utilsService.ts:42-80 | on a snippet made of invocations and the text between them, a pass rewrites the first invocation and leaves everything after it as it was |
| Snippets.ReplaceEachInvocation | docs/utils/utilsService.ts:82-89 | in a snippet with several invocations each is replaced by its own quoted format, in order, and the text between them is kept; the loop makes exactly as many passes as there are invocations |
| Snippets.ReplaceEachAfter | docs/utils/utilsService.ts:82-89 | the same holds behind rewritten text that holds no start marker and cannot end one |
| Snippets.PassesEachAfter | docs/utils/utilsService.ts:82-89 | behind such rewritten text the loop makes one pass per invocation |
| Snippets.ReplaceGetFormatStrings | docs/utils/utilsService.ts:82-89 | the loop computes `ReplaceAll`: no start marker is left, and text without one comes back unchanged |
| AsWritten.SliceCompose | docs/utils/utilsService.ts:46-49 | inside the text `slice` is the subsequence, and two adjacent slices join into one |
| AsWritten.SliceFromEnd | docs/utils/utilsService.ts:46-49 | a negative index counts from the end of the text |
| AsWritten.SliceClamps | docs/utils/utilsService.ts:46-49 | indices past the end are clamped to the end, and a reversed range gives the empty string |
| AsWritten.AgreesWhenTerminated | docs/utils/utilsService.ts:42-80 | with an end marker present, the step as written (`InvocationAsWritten`) equals the modelled step |
| AsWritten.SpanWhenTerminated | docs/utils/utilsService.ts:43-49 | with an end marker present, `slice` cuts out exactly the located span |
| AsWritten.ResolveEmpty | docs/utils/utilsService.ts:51-79 | an empty invocation resolves to `undefined` for every library |
| AsWritten.StuckStep | docs/utils/utilsService.ts:42-80 | on an unterminated invocation starting at index 2 or later, a step as written (`InvocationAsWritten`) puts `"undefined"` in front of the text |
| AsWritten.StuckAfterPrepend | docs/utils/utilsService.ts:43-44 | text in front without `{` keeps the invocation unterminated and its start at index 2 or later |
| AsWritten.NeverTerminates | docs/utils/utilsService.ts:82-89 | on such text the loop as written never ends: after n passes (`PassesAsWritten`) the text is n copies of `"undefined"` in front of the input, and it still holds the start marker |
| AsWritten.LoopPrepends | docs/utils/utilsService.ts:84-86 | a step that prepends the same text on every pass gives n copies of it after n passes, while the marker stays |
| AsWritten.StuckIsReported | docs/utils/utilsService.ts:43-44 | the corrected rewrite reports such text as unterminated |
| AsWritten.UnterminatedExample | docs/utils/utilsService.ts:43-44 | `ab` followed by the start marker and nothing else is such a text |
| AsWritten.UnterminatedAtStart | docs/utils/utilsService.ts:42-89 | with no end marker in the text, a start marker at index 0 loses its first two characters to `"undefined"` in one pass; when no other start marker follows, the loop as written stops there, and when one does, the text left is stuck and the marker stays after any number of passes |
| AsWritten.StuckAfterFirstPass | docs/utils/utilsService.ts:42-89 | when the pass on a terminated first invocation leaves stuck text, the modelled rewrite reports `Err(Unterminated)` and the loop as written keeps the start marker after any number of passes |
| Scenarios.MomentLineParses | docs/utils/utilsService.ts:53-68 | `  moment: 'YYYY-MM-DD',` parses to moment and `YYYY-MM-DD` |
| Scenarios.DayJsLineParses | docs/utils/utilsService.ts:53-68 | `  dayjs: 'YYYY-MM-DD',` parses to dayjs and `YYYY-MM-DD` |
| Scenarios.DateFnsLineParses | docs/utils/utilsService.ts:53-68 | `  'date-fns': 'yyyy-MM-dd',` parses to date-fns and `yyyy-MM-dd`; the quotes of the key are deleted with those of the value |
| Scenarios.LuxonLineParses | docs/utils/utilsService.ts:53-68 | `  luxon: 'yyyy-MM-dd',` parses to luxon and `yyyy-MM-dd` |
| Scenarios.EndLineDropped | docs/utils/utilsService.ts:53 | the closing `})}` line names no library and is dropped |
| Scenarios.FullInvocationSplits | docs/utils/utilsService.ts:52 | the example invocation splits into its six lines |
| Scenarios.FullTable | docs/utils/utilsService.ts:51-76 | the example table holds the four formats under the four library names |
| Scenarios.FullResolves | docs/utils/utilsService.ts:51-78 | each of the four libraries resolves to its own format |
| Scenarios.FullSnippetForMoment | docs/utils/utilsService.ts:42-89 | for moment the example snippet becomes `<DatePicker label="Start date" format="YYYY-MM-DD" />` |
| Scenarios.BracelessSnippet | docs/utils/utilsService.ts:42-89 | a snippet with no `{` around its one invocation, a table without `}` and a format without `{` is rewritten in one pass |
| Scenarios.ParseAfterUnopened | docs/utils/utilsService.ts:55-68 | a line whose first library name is followed by the first colon parses to that name, and its value is what surrounds the two, with quotes and commas deleted and trimmed |
| Scenarios.OneLineTwoPasses | docs/utils/utilsService.ts:42-89 | `{props.__willBeReplacedGetFormatString({ moment: 'x' })}` resolves for moment to a value that still holds both markers, and the loop rewrites it twice to `""undefined""` |
| Scenarios.MarkerLineHangs | docs/utils/utilsService.ts:42-89 | for `ab{props.__willBeReplacedGetFormatString({ moment: 'x'`, a line break and `})}`, the format for moment is the start marker followed by `  x`, and the loop as written keeps a start marker after any number of passes |
| Scenarios.MarkerLineReported | docs/utils/utilsService.ts:42-89 | the modelled rewrite reports that input as `Err(Unterminated)`: the first pass leaves a start marker with no end marker after it |

## Left out

- The `@date-io/*` imports, `utilsMap`, the `UtilsLib` and `FormatsMap` types and `createUtilsService` (lines 1-14, 31-36) are adapter wiring. `__willBeReplacedGetFormatString` only delegates to `cascadeFormats`, which is modelled.
- The `if (!libMatchResult) return []` branch (lines 56-58) is not modelled. The `test` filter before it lets only matching lines through, so the branch is dead code.
- The `$` patterns that `String.replace` interprets in a replacement string (line 79) are not modelled. The replacement is inserted literally, which assumes formats contain no `$`.
- Case folding for the `i` flag is ASCII only. For the five alternatives of `libRegex` this equals JavaScript's behaviour without the `u` flag.
- Snippets.ReplaceAll: reports an unterminated invocation as `Err(Unterminated)`, whether it was in the input or an earlier pass produced it from a resolved format that holds a start marker. When the first start marker of the text is then at index 2 or later the source loops forever instead (see Findings); `AsWritten` models that behaviour and what happens at index 0.
- AsWritten.StuckStep: counts the index 2 in characters, where JavaScript counts UTF-16 code units; the two differ only when a character outside the Basic Multilingual Plane precedes the marker.
- Strings.IndexOfFrom: does not clamp a start position beyond the end of the text as JavaScript does. The rewriter only searches from a position inside the text.

## Findings

| source | as written | input that shows it | evidently intended | confidence | as-written member | corrected member |
|---|---|---|---|---|---|---|
| docs/utils/utilsService.ts:44-49, 84-86 | with no `})}` after the start marker, `indexOf` gives -1 and `slice(start, 2)` is empty when the marker starts at index 2 or later. `replace('')` then inserts `"undefined"` at the front, the marker stays, and the loop never ends | `ab{props.__willBeReplacedGetFormatString({` (no end marker) | an unterminated invocation is reported instead of hanging the build | not executed; the proof covers every such input | AsWritten.NeverTerminates | Snippets.ReplaceAll |
| docs/utils/utilsService.ts:53-65, 84-86 | a table entry on the start marker's own line keeps the marker in its value, since only the library name, the first colon, quotes and commas are deleted. When `})}` is on a later line, the pass puts that value in quotes in place of the invocation, which leaves a start marker with no end marker after it, and the loop never ends from there | `ab{props.__willBeReplacedGetFormatString({ moment: 'x'`, a line break, then `})}`, rewritten for moment | the build fails with a report instead of hanging | not executed; the proof covers this input | Scenarios.MarkerLineHangs | Scenarios.MarkerLineReported |

=== FILE: aswritten.dfy ===
/**
 The rewrite step exactly as `replaceGetFormatInvocation` performs it, with
 JavaScript's -1 from `indexOf` and the way `slice` reads negative and
 out-of-range arguments. Where the invocation is complete it agrees with
 `Snippets.Step`; where no end marker follows the start marker it prepends
 `"undefined"` to the text and keeps the marker, so the loop never ends.
 */
module AsWritten {
  import opened Wrappers
  import opened Strings
  import opened Formats
  import opened Snippets

  /** An index argument of `slice`: negative counts from the end, then clamped to `0..n`. */
  function SliceIndex(i: int, n: nat): (r: nat)
    ensures r <= n
  {
    if i < 0 then (if n + i < 0 then 0 else n + i)
    else if i > n then n
    else i
  }

  /** `s.slice(start, end)`: empty when the clamped range is reversed or empty. */
  function SliceJs(s: string, start: int, end: int): string {
    var from := SliceIndex(start, |s|);
    var to := SliceIndex(end, |s|);
    if from < to then s[from..to] else ""
  }

  /** Inside the text `slice` is the subsequence, and adjacent slices join up. */
  lemma SliceCompose(s: string, a: int, b: int, c: int)
    requires 0 <= a <= b <= c <= |s|
    ensures SliceJs(s, a, b) == s[a..b]
    ensures SliceJs(s, a, b) + SliceJs(s, b, c) == SliceJs(s, a, c)
  {
    assert s[a..b] + s[b..c] == s[a..c];
  }

  /** A negative index counts back from the end of the text. */
  lemma SliceFromEnd(s: string, k: int, b: int)
    requires 0 < k <= |s|
    ensures SliceJs(s, -k, b) == SliceJs(s, |s| - k, b)
  {
  }

  /** An index past the end reads as the end, and a range that runs backwards is empty. */
  lemma SliceClamps(s: string, a: int, b: int)
    ensures b >= |s| ==> SliceJs(s, a, b) == SliceJs(s, a, |s|)
    ensures 0 <= b <= a ==> SliceJs(s, a, b) == ""
  {
  }

  /** A search result as JavaScript reports it: the index, or -1. */
  function IndexJs(o: Option<nat>): int {
    match o
    case None => -1
    case Some(i) => i
  }

  /** Lines 43-49 as written: the text `slice` cuts out, whatever the searches answered. */
  function SpanAsWritten(s: string): string {
    var st := IndexJs(IndexOf(s, StartMarker));
    var e := IndexJs(IndexOfFrom(s, EndMarker, if st < 0 then 0 else st));
    SliceJs(s, st, e + |EndMarker|)
  }

  /** Lines 42-80 as written, including the case where no end marker is found. */
  function InvocationAsWritten(lib: string, s: string): string {
    var invocation := SpanAsWritten(s);
    ReplaceFirst(s, invocation, Quote(Resolve(lib, invocation)))
  }

  /** Where the invocation is complete, the step as written is the modelled step. */
  lemma AgreesWhenTerminated(lib: string, s: string)
    requires LocateSpan(s).Ok?
    ensures InvocationAsWritten(lib, s) == Step(lib, s).value
  {
    var sp := LocateSpan(s).value;
    var inv := s[sp.start..sp.end];
    SpanWhenTerminated(s);
    assert InvocationAsWritten(lib, s) == ReplaceFirst(s, inv, Quote(Resolve(lib, inv)));
  }

  /** Where the invocation is complete, `slice` cuts out exactly the located span. */
  lemma SpanWhenTerminated(s: string)
    requires LocateSpan(s).Ok?
    ensures SpanAsWritten(s) == s[LocateSpan(s).value.start..LocateSpan(s).value.end]
  {
    var sp := LocateSpan(s).value;
    IndexOfFromIsFirst(s, StartMarker, 0, sp.start);
    IndexOfFromIsFirst(s, EndMarker, sp.start, sp.end - |EndMarker|);
    assert IndexJs(IndexOf(s, StartMarker)) == sp.start;
    assert IndexJs(IndexOfFrom(s, EndMarker, sp.start)) + |EndMarker| == sp.end;
  }

  /**
   The text an unterminated invocation leaves the loop with: the first start
   marker lies at index 2 or later and no end marker follows it.
   */
  predicate Stuck(s: string) {
    && IndexOf(s, StartMarker).Some?
    && IndexOf(s, StartMarker).value >= 2
    && IndexOfFrom(s, EndMarker, IndexOf(s, StartMarker).value).None?
  }

  /** What the template literal prints for a table with no entry: `"undefined"`. */
  const QuotedUndefined: string := Quote("undefined")

  /**
   On stuck text the slice is empty, the empty invocation resolves to
   `undefined`, and `replace('')` puts the quoted word in front of the text.
   */
  lemma StuckStep(lib: string, s: string)
    requires Stuck(s)
    ensures InvocationAsWritten(lib, s) == QuotedUndefined + s
  {
    var st := IndexOf(s, StartMarker).value;
    assert SpanAsWritten(s) == SliceJs(s, st, -1 + |EndMarker|) == "";
    ResolveEmpty(lib);
    assert FirstFrom(s, "", 0, 0) by { assert OccursAt(s, "", 0); }
    ReplaceFirstAt(s, "", QuotedUndefined, 0);
    assert s[0..] == s;
  }

  /** The empty invocation has no table lines, so every library resolves to `undefined`. */
  lemma ResolveEmpty(lib: string)
    ensures Resolve(lib, "") == "undefined"
  {
    assert Split("", '\n') == [""];
    ShortLineNoToken("");
    ResolveUnnamed(lib, "");
  }

  /** Prepending text that holds no `{` keeps the text stuck. */
  lemma StuckAfterPrepend(q: string, s: string)
    requires Stuck(s) && '{' !in q
    ensures Stuck(q + s)
  {
    var st := IndexOf(s, StartMarker).value;
    MarkerCharacters();
    PrependFirst(q, s, StartMarker, st);
    IndexOfFromIsFirst(q + s, StartMarker, 0, |q| + st);
    forall j | |q| + st <= j ensures !OccursAt(q + s, EndMarker, j) {
      OccursShift(q, s, EndMarker, j - |q|);
    }
  }

  /** `n` copies of `x` one after another. */
  function Copies(x: string, n: nat): string {
    if n == 0 then "" else x + Copies(x, n - 1)
  }

  /** Lines 82-89 as written: `step` applied while `marker` occurs, cut off after at most `n` passes. */
  function Loop(step: string -> string, marker: string, s: string, n: nat): string
    decreases n
  {
    if n == 0 || !Contains(s, marker) then s
    else Loop(step, marker, step(s), n - 1)
  }

  /** The loop of lines 82-89 as written, cut off after at most `n` passes. */
  function PassesAsWritten(lib: string, s: string, n: nat): string {
    Loop(t => InvocationAsWritten(lib, t), StartMarker, s, n)
  }

  /**
   From stuck text the loop never stops: after `n` passes the text is `n`
   copies of `"undefined"` in front of the original, and it still holds the
   start marker the loop tests for.
   */
  lemma NeverTerminates(lib: string, s: string, n: nat)
    requires Stuck(s)
    ensures PassesAsWritten(lib, s, n) == Copies(QuotedUndefined, n) + s
    ensures Contains(PassesAsWritten(lib, s, n), StartMarker)
  {
    StuckIsClosed(lib);
    LoopPrepends(t => InvocationAsWritten(lib, t), StartMarker, Stuck, QuotedUndefined, s, n);
  }

  /** Every pass on stuck text prepends `"undefined"`, and the result is stuck again. */
  lemma StuckIsClosed(lib: string)
    ensures forall t :: Stuck(t) ==>
              && InvocationAsWritten(lib, t) == QuotedUndefined + t
              && Stuck(QuotedUndefined + t)
              && Contains(t, StartMarker)
  {
    forall t | Stuck(t)
      ensures InvocationAsWritten(lib, t) == QuotedUndefined + t && Stuck(QuotedUndefined + t)
    {
      StuckStep(lib, t);
      NoBraceInUndefined();
      StuckAfterPrepend(QuotedUndefined, t);
    }
  }

  /**
   A step that puts `q` in front of any text satisfying `p`, where `p` holds
   again afterwards and implies the marker is there, does so on every pass.
   */
  lemma {:induction false} LoopPrepends(step: string -> string, marker: string, p: string -> bool, q: string, s: string, n: nat)
    requires forall t :: p(t) ==> step(t) == q + t && Contains(t, marker)
    requires forall t {:trigger step(t)} :: p(t) ==> p(q + t)
    requires p(s)
    ensures Loop(step, marker, s, n) == Copies(q, n) + s
    ensures Contains(Loop(step, marker, s, n), marker)
    decreases n
  {
    assert step(s) == q + s;
    if n == 0 {
      assert Copies(q, 0) + s == s;
    } else {
      var t := q + s;
      LoopPrepends(step, marker, p, q, t, n - 1);
      CopiesPrepend(q, n, s, t);
    }
  }

  /** One more copy in front of the rest. */
  lemma CopiesPrepend(x: string, n: nat, s: string, t: string)
    requires n > 0 && t == x + s
    ensures Copies(x, n - 1) + t == Copies(x, n) + s
  {
    Associative(Copies(x, n - 1), x, s);
    CopiesSwap(x, n - 1);
  }

  lemma NoBraceInUndefined()
    ensures '{' !in QuotedUndefined
  {
  }

  /** Adding a copy at the back is adding it at the front. */
  lemma {:induction false} CopiesSwap(x: string, n: nat)
    ensures Copies(x, n) + x == x + Copies(x, n)
  {
    if n > 0 {
      CopiesSwap(x, n - 1);
      Associative(x, Copies(x, n - 1), x);
    }
  }

  /** The modelled rewrite stops on stuck text and reports the missing end marker. */
  lemma StuckIsReported(lib: string, s: string)
    requires Stuck(s)
    ensures ReplaceAll(lib, s) == Err(Unterminated)
  {
    LocateSpanUnterminated(s);
  }

  /**
   A terminated first invocation whose pass leaves stuck text: the modelled
   rewrite reports the unterminated marker that pass produced, and the loop
   as written never ends.
   */
  lemma StuckAfterFirstPass(lib: string, s: string, n: nat)
    requires LocateSpan(s).Ok? && Stuck(Step(lib, s).value)
    ensures ReplaceAll(lib, s) == Err(Unterminated)
    ensures Contains(PassesAsWritten(lib, s, n), StartMarker)
  {
    var t := Step(lib, s).value;
    ReplaceAllContinues(lib, s);
    StuckIsReported(lib, t);
    AgreesWhenTerminated(lib, s);
    HangsAfterPass(lib, s, t, n);
  }

  /**
   A quoted format that starts with the start marker, behind text without
   braces, is stuck when neither the text nor the rest of the format holds `}`.
   */
  lemma StuckQuoted(g: string, m: string)
    requires |g| >= 1 && '{' !in g && '}' !in g && '}' !in m
    ensures Stuck(g + Quote(StartMarker + m))
  {
    WrapAfter(g, "\"", StartMarker, m);
    StuckBehind(g + "\"", m + "\"");
  }

  /** The start marker behind two or more characters without braces, with no `}` after it. */
  lemma StuckBehind(q: string, m: string)
    requires |q| >= 2 && '{' !in q && '}' !in q && '}' !in m
    ensures Stuck(q + (StartMarker + m))
  {
    var t := q + (StartMarker + m);
    MarkerCharacters();
    MarkerInFront(m);
    assert (StartMarker + m)[..|StartMarker|] == StartMarker;
    assert FirstFrom(StartMarker + m, StartMarker, 0, 0);
    PrependFirst(q, StartMarker + m, StartMarker, 0);
    IndexOfFromIsFirst(t, StartMarker, 0, |q|);
    NoFirstChar(t, EndMarker);
    IndexOfFromAbsent(t, EndMarker, |q|);
  }

  /** A start marker at index 2 with nothing after it is such an input. */
  lemma UnterminatedExample()
    ensures Stuck("ab" + StartMarker)
  {
    var s := "ab" + StartMarker;
    MarkerCharacters();
    FirstAfterPrefix("ab", StartMarker, "");
    assert "ab" + StartMarker + "" == s;
    IndexOfFromIsFirst(s, StartMarker, 0, 2);
    forall j | 2 <= j ensures !OccursAt(s, EndMarker, j) {
      if j + |EndMarker| <= |s| {
        assert s[j..j + |EndMarker|][0] == s[j];
        assert s[j] == StartMarker[j - 2];
        assert StartMarker[j - 2] in StartMarker;
      }
    }
  }

  /**
   At index 0 an unterminated invocation is cut down to `{p`: `slice(0, 2)`
   takes the marker's first two characters, which name no library, and the
   first pass puts `"undefined"` in their place. If no other start marker
   follows, none is left and the loop stops there; if one does, the text the
   pass leaves is stuck and the loop never ends.
   */
  lemma UnterminatedAtStart(lib: string, rest: string, n: nat)
    requires n >= 1 && !Contains(StartMarker + rest, EndMarker)
    ensures InvocationAsWritten(lib, StartMarker + rest) == QuotedUndefined + (StartMarker[2..] + rest)
    ensures !Contains(StartMarker[2..] + rest, StartMarker) ==>
              && !Contains(QuotedUndefined + (StartMarker[2..] + rest), StartMarker)
              && PassesAsWritten(lib, StartMarker + rest, n) == QuotedUndefined + (StartMarker[2..] + rest)
    ensures Contains(StartMarker[2..] + rest, StartMarker) ==>
              && Stuck(QuotedUndefined + (StartMarker[2..] + rest))
              && Contains(PassesAsWritten(lib, StartMarker + rest, n), StartMarker)
  {
    var s, tail := StartMarker + rest, StartMarker[2..] + rest;
    PassAtStart(lib, rest);
    MarkerInFront(rest);
    if Contains(tail, StartMarker) {
      TailStuck(rest);
      HangsAfterPass(lib, s, QuotedUndefined + tail, n);
    } else {
      UndefinedSealed();
      ContainsSealed(QuotedUndefined, tail, StartMarker);
      StopsAfterPass(lib, s, QuotedUndefined + tail, n);
    }
  }

  /** A pass that leaves stuck text hangs the loop: the marker is there after any number of passes. */
  lemma HangsAfterPass(lib: string, s: string, t: string, n: nat)
    requires Contains(s, StartMarker) && InvocationAsWritten(lib, s) == t && Stuck(t)
    ensures Contains(PassesAsWritten(lib, s, n), StartMarker)
  {
    var step := u => InvocationAsWritten(lib, u);
    forall m: nat ensures Contains(Loop(step, StartMarker, t, m), StartMarker) {
      NeverTerminates(lib, t, m);
      assert PassesAsWritten(lib, t, m) == Loop(step, StartMarker, t, m);
    }
    LoopHangs(step, StartMarker, s, t, n);
  }

  /** A pass that leaves no start marker is the loop's last. */
  lemma StopsAfterPass(lib: string, s: string, t: string, n: nat)
    requires n >= 1 && Contains(s, StartMarker) && InvocationAsWritten(lib, s) == t && !Contains(t, StartMarker)
    ensures PassesAsWritten(lib, s, n) == t
  {
    LoopStops(u => InvocationAsWritten(lib, u), StartMarker, s, t, n);
  }

  /** The text starts with the marker the loop tests for. */
  lemma MarkerInFront(rest: string)
    ensures Contains(StartMarker + rest, StartMarker)
  {
    assert (StartMarker + rest)[..|StartMarker|] == StartMarker;
    assert OccursAt(StartMarker + rest, StartMarker, 0);
  }

  /** `"undefined"` holds neither marker and ends in a quote, which neither marker holds. */
  lemma UndefinedSealed()
    ensures Sealed(QuotedUndefined, StartMarker) && Sealed(QuotedUndefined, EndMarker)
  {
    MarkerCharacters();
    NoBraceInUndefined();
    NoFirstChar(QuotedUndefined, StartMarker);
    NoFirstChar(QuotedUndefined, EndMarker);
  }

  /**
   After the first pass a later start marker is the first one, behind the
   eleven characters of `"undefined"`, and no end marker follows it.
   */
  lemma TailStuck(rest: string)
    requires !Contains(StartMarker + rest, EndMarker) && Contains(StartMarker[2..] + rest, StartMarker)
    ensures Stuck(QuotedUndefined + (StartMarker[2..] + rest))
  {
    var tail := StartMarker[2..] + rest;
    var t := QuotedUndefined + tail;
    UndefinedSealed();
    IndexOfSealed(QuotedUndefined, tail, StartMarker);
    NoEndMarkerInTail(rest);
    AbsentSealed(QuotedUndefined, tail, EndMarker);
    IndexOfFromAbsent(t, EndMarker, IndexOf(t, StartMarker).value);
  }

  /** What follows the first two characters holds no end marker when the whole text holds none. */
  lemma NoEndMarkerInTail(rest: string)
    requires !Contains(StartMarker + rest, EndMarker)
    ensures forall j :: 0 <= j ==> !OccursAt(StartMarker[2..] + rest, EndMarker, j)
  {
    CutFront(StartMarker, rest, 2);
    AbsentBehind(StartMarker[..2], StartMarker[2..] + rest, EndMarker);
  }

  /** With no end marker after it, `slice(0, 2)` cuts out `{p`, which resolves to `undefined`. */
  lemma PassAtStart(lib: string, rest: string)
    requires !Contains(StartMarker + rest, EndMarker)
    ensures InvocationAsWritten(lib, StartMarker + rest) == QuotedUndefined + (StartMarker[2..] + rest)
  {
    var s := StartMarker + rest;
    SpanAtStart(rest);
    TwoCharsUndefined(lib, StartMarker[..2]);
    assert s[..2] == StartMarker[..2] && s[2..] == StartMarker[2..] + rest;
    ReplaceFirstTwo(s, QuotedUndefined);
  }

  /** With no end marker after it, the slice from the start marker at 0 is its first two characters. */
  lemma SpanAtStart(rest: string)
    requires !Contains(StartMarker + rest, EndMarker)
    ensures SpanAsWritten(StartMarker + rest) == StartMarker[..2]
  {
    var s := StartMarker + rest;
    MarkerInFront(rest);
    IndexOfFromIsFirst(s, StartMarker, 0, 0);
    IndexOfFromAbsent(s, EndMarker, 0);
    assert s[0..2] == StartMarker[..2];
  }

  /** Replacing a text's first two characters. */
  lemma ReplaceFirstTwo(t: string, v: string)
    requires |t| >= 2
    ensures ReplaceFirst(t, t[..2], v) == v + t[2..]
  {
    assert OccursAt(t, t[..2], 0);
    ReplaceFirstAt(t, t[..2], v, 0);
    assert t[..0] + v + t[2..] == v + t[2..];
  }

  /** A pass into text from which the marker never goes keeps the marker there from the start. */
  lemma LoopHangs(step: string -> string, marker: string, s: string, t: string, n: nat)
    requires Contains(s, marker) && step(s) == t
    requires forall m: nat :: Contains(Loop(step, marker, t, m), marker)
    ensures Contains(Loop(step, marker, s, n), marker)
  {
    if n > 0 {
      LoopOnce(step, marker, s, t, n);
      assert Contains(Loop(step, marker, t, n - 1), marker);
    }
  }

  /** While the marker occurs, the loop makes one pass and carries on from its result. */
  lemma LoopOnce(step: string -> string, marker: string, s: string, t: string, n: nat)
    requires n >= 1 && Contains(s, marker) && step(s) == t
    ensures Loop(step, marker, s, n) == Loop(step, marker, t, n - 1)
  {
  }

  /** A pass that removes the last marker ends the loop, however many passes remain. */
  lemma LoopStops(step: string -> string, marker: string, s: string, t: string, n: nat)
    requires n >= 1 && Contains(s, marker) && step(s) == t && !Contains(t, marker)
    ensures Loop(step, marker, s, n) == t
  {
    LoopOnce(step, marker, s, t, n);
  }

  /** A two-character invocation is a single line too short to name a library. */
  lemma TwoCharsUndefined(lib: string, t: string)
    requires |t| == 2 && '\n' !in t
    ensures Resolve(lib, t) == "undefined"
  {
    SplitNoSep(t, '\n');
    ShortLineNoToken(t);
    ResolveUnnamed(lib, t);
  }
}

=== FILE: formats.dfy ===
/**
 The format resolver: given the library a documentation page is rendered for
 and a table from library name to format string, pick the one format string
 to show, falling back from luxon to date-fns and from dayjs to moment.
 */
module Formats {
  import opened Wrappers

  /** Library name to format string; a missing key is JavaScript's `undefined`. */
  type FormatsMap = map<string, string>

  const DateFns: string := "date-fns"
  const Luxon: string := "luxon"
  const Moment: string := "moment"
  const DayJs: string := "dayjs"

  /** `formatsMap[lib]`. */
  function Entry(m: FormatsMap, lib: string): Option<string> {
    if lib in m then Some(m[lib]) else None
  }

  /** JavaScript truthiness of a format entry: present and not the empty string. */
  predicate Truthy(o: Option<string>) {
    o.Some? && o.value != ""
  }

  /** `a || b` on two format entries. */
  function OrElse(a: Option<string>, b: Option<string>): Option<string> {
    if Truthy(a) then a else b
  }

  /** `cascadeFormats(lib, formatsMap)`. */
  function Cascade(lib: string, m: FormatsMap): (r: Option<string>)
    ensures r.Some? ==> exists k :: k in FallbackChain(lib) && Entry(m, k) == r
  {
    if lib == DateFns then Entry(m, DateFns)
    else if lib == Luxon then OrElse(Entry(m, Luxon), Entry(m, DateFns))
    else if lib == Moment then Entry(m, Moment)
    else if lib == DayJs then OrElse(Entry(m, DayJs), Entry(m, Moment))
    else Entry(m, DateFns)
  }

  /** The keys the resolver may read for `lib`, most preferred first. */
  function FallbackChain(lib: string): (r: seq<string>)
    ensures 1 <= |r| <= 2
  {
    if lib == Luxon then [Luxon, DateFns]
    else if lib == DayJs then [DayJs, Moment]
    else if lib == Moment then [Moment]
    else [DateFns]
  }

  /**
   Reference reading of the cascade: walk the chain and take the first truthy
   entry; the last key of the chain is taken as it is, truthy or not.
   */
  function ChainLookup(chain: seq<string>, m: FormatsMap): Option<string>
    requires |chain| >= 1
    decreases |chain|
  {
    if |chain| == 1 then Entry(m, chain[0])
    else OrElse(Entry(m, chain[0]), ChainLookup(chain[1..], m))
  }

  /** The resolver is exactly the chain walk over the fallback chain. */
  lemma CascadeIsChainLookup(lib: string, m: FormatsMap)
    ensures Cascade(lib, m) == ChainLookup(FallbackChain(lib), m)
  {
  }

  /** Entries outside the fallback chain are never consulted. */
  lemma CascadeReadsOnlyChain(lib: string, m: FormatsMap, m': FormatsMap)
    requires forall k :: k in FallbackChain(lib) ==> Entry(m, k) == Entry(m', k)
    ensures Cascade(lib, m) == Cascade(lib, m')
  {
    assert forall i :: 0 <= i < |FallbackChain(lib)| ==> FallbackChain(lib)[i] in FallbackChain(lib);
  }

  /** date-fns and moment have no fallback: the result is their own entry, whatever else the table holds. */
  lemma CascadeNoFallback(lib: string, m: FormatsMap)
    requires lib == DateFns || lib == Moment
    ensures Cascade(lib, m) == Entry(m, lib)
  {
  }

  /**
   luxon and dayjs take their own entry when it is present and non-empty;
   otherwise, an absent or empty entry alike, the date-fns (respectively
   moment) entry, which may itself be absent.
   */
  lemma CascadeFallback(lib: string, m: FormatsMap)
    requires lib == Luxon || lib == DayJs
    ensures var fallback := if lib == Luxon then DateFns else Moment;
            (Truthy(Entry(m, lib)) ==> Cascade(lib, m) == Some(m[lib]))
            && (!Truthy(Entry(m, lib)) ==> Cascade(lib, m) == Entry(m, fallback))
  {
  }

  /** A target outside the four known libraries resolves as date-fns does. */
  lemma CascadeUnknownIsDateFns(lib: string, m: FormatsMap)
    requires lib !in {DateFns, Luxon, Moment, DayJs}
    ensures Cascade(lib, m) == Cascade(DateFns, m)
  {
  }

  /** For luxon and dayjs an empty entry is the same as a missing one. */
  lemma CascadeEmptyIsMissing(lib: string, m: FormatsMap)
    requires lib == Luxon || lib == DayJs
    ensures Cascade(lib, m[lib := ""]) == Cascade(lib, m - {lib})
  {
    var fallback := if lib == Luxon then DateFns else Moment;
    assert Entry(m[lib := ""], fallback) == Entry(m - {lib}, fallback);
  }
}

=== FILE: scenarios.dfy ===
/**
 Worked examples: a date-picker snippet whose format table lists all four
 libraries in the shape the documentation uses, resolved for each library and
 rewritten for moment; and tables written on the start marker's own line,
 with the end marker on that line or on the next one.
 */
module Scenarios {
  import opened Wrappers
  import opened Strings
  import opened Formats
  import opened Snippets
  import AsWritten

  /** A table line: indentation, key, colon, and the quoted format with its trailing comma. */
  function Row(pre: string, key: string, q: string, w: string, fmt: string, post: string): string {
    pre + key + q + ":" + w + fmt + post
  }

  /** `  moment: 'YYYY-MM-DD',` */
  const MomentLine: string := Row("  ", Moment, "", " '", "YYYY-MM-DD", "',")
  /** `  dayjs: 'YYYY-MM-DD',` */
  const DayJsLine: string := Row("  ", DayJs, "", " '", "YYYY-MM-DD", "',")
  /** `  'date-fns': 'yyyy-MM-dd',` */
  const DateFnsLine: string := Row("  '", DateFns, "'", " '", "yyyy-MM-dd", "',")
  /** `  luxon: 'yyyy-MM-dd',` */
  const LuxonLine: string := Row("  ", Luxon, "", " '", "yyyy-MM-dd", "',")

  /** The lines of the full invocation: the start marker, one line per library, the end marker. */
  const FullLines: seq<string> := [StartMarker, MomentLine, DayJsLine, DateFnsLine, LuxonLine, EndMarker]

  /** The table between the markers, one library per line. */
  const FullBody: string := "\n" + MomentLine + "\n" + DayJsLine + "\n" + DateFnsLine + "\n" + LuxonLine + "\n"

  const FullInvocation: string := StartMarker + FullBody + EndMarker

  /** The snippet around the invocation. */
  const Before: string := "<DatePicker label=\"Start date\" format="
  const After: string := " />"

  // ---------------------------------------------------------------------------
  // The lines of the table
  // ---------------------------------------------------------------------------

  lemma MomentLineParses()
    ensures ParseLine(MomentLine) == Some((Moment, "YYYY-MM-DD"))
  {
    TablePieces();
    ParseTableLine(MomentLine, "  ", Moment, "", " '", "YYYY-MM-DD", "',");
  }

  lemma DayJsLineParses()
    ensures ParseLine(DayJsLine) == Some((DayJs, "YYYY-MM-DD"))
  {
    TablePieces();
    ParseTableLine(DayJsLine, "  ", DayJs, "", " '", "YYYY-MM-DD", "',");
  }

  /** The quoted key loses its quotes along with the format's. */
  lemma DateFnsLineParses()
    ensures ParseLine(DateFnsLine) == Some((DateFns, "yyyy-MM-dd"))
  {
    TablePieces();
    ParseTableLine(DateFnsLine, "  '", DateFns, "'", " '", "yyyy-MM-dd", "',");
  }

  lemma LuxonLineParses()
    ensures ParseLine(LuxonLine) == Some((Luxon, "yyyy-MM-dd"))
  {
    TablePieces();
    ParseTableLine(LuxonLine, "  ", Luxon, "", " '", "yyyy-MM-dd", "',");
  }

  /** The padding and the formats the table lines are made of. */
  lemma TablePieces()
    ensures Moment in LibTokens && DayJs in LibTokens && DateFns in LibTokens && Luxon in LibTokens
    ensures Padding("  ") && Padding("") && Padding(" '") && Padding("',") && Padding("  '") && Padding("'")
    ensures Clean("YYYY-MM-DD") && Clean("yyyy-MM-dd")
  {
  }

  /** The closing line names no library and is dropped. */
  lemma EndLineDropped()
    ensures ParseLine(EndMarker) == None
  {
    assert LibMatch("})}") == None;
  }

  /** Joining six lines puts a separator between each neighbouring pair. */
  lemma JoinSix(a: string, b: string, c: string, d: string, e: string, f: string, sep: char)
    ensures Join([a, b, c, d, e, f], sep) == a + ([sep] + b + [sep] + c + [sep] + d + [sep] + e + [sep]) + f
  {
    JoinCons(e, [f], sep);
    JoinCons(d, [e, f], sep);
    JoinCons(c, [d, e, f], sep);
    JoinCons(b, [c, d, e, f], sep);
    JoinCons(a, [b, c, d, e, f], sep);
    assert Join([f], sep) == f;
  }

  /** Splitting the invocation at line feeds gives its lines back. */
  lemma FullInvocationSplits()
    ensures Split(FullInvocation, '\n') == FullLines
  {
    NoLineFeeds();
    SplitSix(FullInvocation, StartMarker, MomentLine, DayJsLine, DateFnsLine, LuxonLine, EndMarker, '\n', "\n");
  }

  /** Six lines free of the separator, joined by it, split back into themselves. */
  lemma SplitSix(s: string, a: string, b: string, c: string, d: string, e: string, f: string, sep: char, nl: string)
    requires nl == [sep]
    requires s == a + (nl + b + nl + c + nl + d + nl + e + nl) + f
    requires sep !in a && sep !in b && sep !in c && sep !in d && sep !in e && sep !in f
    ensures Split(s, sep) == [a, b, c, d, e, f]
  {
    JoinSix(a, b, c, d, e, f, sep);
    var lines := [a, b, c, d, e, f];
    forall k | 0 <= k < |lines| ensures sep !in lines[k] {
    }
    SplitJoin(lines, sep);
  }

  lemma NoLineFeeds()
    ensures '\n' !in StartMarker && '\n' !in EndMarker
    ensures '\n' !in MomentLine && '\n' !in DayJsLine && '\n' !in DateFnsLine && '\n' !in LuxonLine
  {
    MarkersOneLine();
    UpperRowsOneLine();
    LowerRowsOneLine();
  }

  lemma MarkersOneLine()
    ensures '\n' !in StartMarker && '\n' !in EndMarker
  {
  }

  lemma UpperRowsOneLine()
    ensures '\n' !in MomentLine && '\n' !in DayJsLine
  {
    RowFree('\n', "  ", Moment, "", " '", "YYYY-MM-DD", "',");
    RowFree('\n', "  ", DayJs, "", " '", "YYYY-MM-DD", "',");
  }

  lemma LowerRowsOneLine()
    ensures '\n' !in DateFnsLine && '\n' !in LuxonLine
  {
    RowFree('\n', "  '", DateFns, "'", " '", "yyyy-MM-dd", "',");
    RowFree('\n', "  ", Luxon, "", " '", "yyyy-MM-dd", "',");
  }

  /** A row built from pieces that avoid `c` avoids `c`. */
  lemma RowFree(c: char, pre: string, key: string, q: string, w: string, fmt: string, post: string)
    requires c !in pre && c !in key && c !in q && c !in w && c !in fmt && c !in post && c != ':'
    ensures c !in Row(pre, key, q, w, fmt, post)
  {
  }

  // ---------------------------------------------------------------------------
  // The table and the format each library gets
  // ---------------------------------------------------------------------------

  /**
   Six parsed lines whose middle four set moment, dayjs, date-fns and luxon
   in turn, the last being dropped, fold to exactly those entries.
   */
  lemma FourEntryFold(es: seq<ParsedLine>, f1: string, f2: string, f3: string, f4: string)
    requires |es| == 6
    requires es[1] == Some((Moment, f1)) && es[2] == Some((DayJs, f2))
    requires es[3] == Some((DateFns, f3)) && es[4] == Some((Luxon, f4)) && es[5] == None
    ensures var m := Fold(es);
            && Entry(m, Moment) == Some(f1) && Entry(m, DayJs) == Some(f2)
            && Entry(m, DateFns) == Some(f3) && Entry(m, Luxon) == Some(f4)
  {
    LastWins(es, 1);
    LastWins(es, 2);
    LastWins(es, 3);
    LastWins(es, 4);
  }

  /** The parsed lines of a six-line table, one by one. */
  lemma SixLines(lines: seq<string>, l0: string, l1: string, l2: string, l3: string, l4: string, l5: string)
    requires lines == [l0, l1, l2, l3, l4, l5]
    ensures var es := ParseLines(lines);
            && |es| == 6 && es[1] == ParseLine(l1) && es[2] == ParseLine(l2)
            && es[3] == ParseLine(l3) && es[4] == ParseLine(l4) && es[5] == ParseLine(l5)
  {
    var es := ParseLines(lines);
    assert es[1] == ParseLine(lines[1]);
    assert es[2] == ParseLine(lines[2]);
    assert es[3] == ParseLine(lines[3]);
    assert es[4] == ParseLine(lines[4]);
    assert es[5] == ParseLine(lines[5]);
  }

  /** Each library's line of the full invocation sets its entry. */
  lemma FullTable()
    ensures var m := BuildMap(FullLines);
            && Entry(m, Moment) == Some("YYYY-MM-DD") && Entry(m, DayJs) == Some("YYYY-MM-DD")
            && Entry(m, DateFns) == Some("yyyy-MM-dd") && Entry(m, Luxon) == Some("yyyy-MM-dd")
  {
    MomentLineParses();
    DayJsLineParses();
    DateFnsLineParses();
    LuxonLineParses();
    EndLineDropped();
    SixLines(FullLines, StartMarker, MomentLine, DayJsLine, DateFnsLine, LuxonLine, EndMarker);
    FourEntryFold(ParseLines(FullLines), "YYYY-MM-DD", "YYYY-MM-DD", "yyyy-MM-dd", "yyyy-MM-dd");
  }

  /**
   `Resolve` unfolded for an invocation whose lines are known: the cascade's
   pick for `lib` from the table those lines build, rendered.
   */
  lemma ResolveThroughLines(lib: string, inv: string, lines: seq<string>)
    requires Split(inv, '\n') == lines
    ensures Resolve(lib, inv) == Render(Cascade(lib, BuildMap(lines)))
  {
  }

  /** Every library gets its own format from the full table. */
  lemma FullResolves()
    ensures Resolve(Moment, FullInvocation) == "YYYY-MM-DD"
    ensures Resolve(DayJs, FullInvocation) == "YYYY-MM-DD"
    ensures Resolve(DateFns, FullInvocation) == "yyyy-MM-dd"
    ensures Resolve(Luxon, FullInvocation) == "yyyy-MM-dd"
  {
    FullInvocationSplits();
    FullTable();
    ResolveThroughLines(Moment, FullInvocation, FullLines);
    ResolveThroughLines(DayJs, FullInvocation, FullLines);
    ResolveThroughLines(DateFns, FullInvocation, FullLines);
    ResolveThroughLines(Luxon, FullInvocation, FullLines);
  }

  // ---------------------------------------------------------------------------
  // The whole snippet
  // ---------------------------------------------------------------------------

  /** For moment the snippet's invocation becomes the string literal `"YYYY-MM-DD"`. */
  lemma FullSnippetForMoment()
    ensures ReplaceAll(Moment, Before + FullInvocation + After)
            == Ok(Before + "\"YYYY-MM-DD\"" + After)
  {
    NoBraceInBody();
    SnippetText();
    FullResolves();
    BracelessSnippet(Moment, Before, FullBody, After, "YYYY-MM-DD");
  }

  /**
   A snippet whose text around its one invocation holds no `{`, with a table
   free of `}` that resolves to a format without `{`, is rewritten in one pass.
   */
  lemma BracelessSnippet(lib: string, pre: string, body: string, post: string, v: string)
    requires '{' !in pre && '{' !in post && '}' !in body && '{' !in v
    requires Resolve(lib, StartMarker + body + EndMarker) == v
    ensures ReplaceAll(lib, pre + (StartMarker + body + EndMarker) + post) == Ok(pre + Quote(v) + post)
    ensures Passes(lib, pre + (StartMarker + body + EndMarker) + post) == 1
  {
    var inv := StartMarker + body + EndMarker;
    MarkerCharacters();
    FirstAfterPrefix(pre, StartMarker, "");
    assert pre + StartMarker + "" == pre + StartMarker;
    NoBraceNoMarker(post);
    NoBraceNoMarker(v);
    ReplaceSingleInvocation(lib, pre + inv + post, pre, inv, body, post);
  }

  /** The table lines hold no `}`, so the first end marker after the start is the closing one. */
  lemma NoBraceInBody()
    ensures '}' !in FullBody
  {
    assert '}' !in MomentLine && '}' !in DayJsLine && '}' !in DateFnsLine && '}' !in LuxonLine;
  }

  lemma SnippetText()
    ensures '{' !in Before && '{' !in After && '{' !in "YYYY-MM-DD"
    ensures Quote("YYYY-MM-DD") == "\"YYYY-MM-DD\""
  {
  }

  // ---------------------------------------------------------------------------
  // A table written on the start marker's own line
  // ---------------------------------------------------------------------------

  /** ` moment: 'x' `: the table of `{props.__willBeReplacedGetFormatString({ moment: 'x' })}`. */
  const OneLineBody: string := " " + Moment + ":" + OneLineRest
  const OneLineRest: string := " 'x' "
  const OneLineInvocation: string := StartMarker + OneLineBody + EndMarker

  /** What is left of the table once the token and the colon are cut out. */
  const OneLineLeft: string := " " + OneLineRest

  /** The value of the one line: the quotes go, the markers stay. */
  const OneLineValue: string := StartMarker + "  x " + EndMarker

  /**
   When the entry sits on the start marker's own line, its value keeps both
   markers: only the token, the colon and the quotes are deleted. The next
   pass rewrites the invocation that value spells, whose table names no
   library, and the loop ends on a doubly quoted `undefined`.
   */
  lemma OneLineTwoPasses()
    ensures Resolve(Moment, OneLineInvocation) == OneLineValue
    ensures Contains(OneLineValue, StartMarker)
    ensures ReplaceAll(Moment, OneLineInvocation) == Ok("\"\"undefined\"\"")
  {
    OneLineResolves();
    FirstPassOnOneLine();
    SecondPass("  x ");
    LeadingMarker(StartMarker, "  x ", EndMarker);
  }

  lemma LeadingMarker(p: string, a: string, b: string)
    ensures Contains(p + a + b, p)
  {
    assert OccursAt(p + a + b, p, 0);
  }

  /** The first pass puts the quoted value in place of the whole text. */
  lemma FirstPassOnOneLine()
    ensures ReplaceAll(Moment, OneLineInvocation) == ReplaceAll(Moment, Quote(Resolve(Moment, OneLineInvocation)))
  {
    NoBraceInOneLine();
    PassAlone(Moment, OneLineBody);
    ReplaceAllContinues(Moment, OneLineInvocation);
  }

  lemma NoBraceInOneLine()
    ensures '}' !in OneLineBody
  {
  }

  /** A text that is one invocation and nothing else becomes its quoted format in one pass. */
  lemma PassAlone(lib: string, body: string)
    requires '}' !in body
    ensures Step(lib, Invocation(body)) == Ok(Quote(Resolve(lib, Invocation(body))))
  {
    var inv := Invocation(body);
    MarkerOpensText();
    PassAt(lib, "", body, "");
    EmptyAround(inv);
    EmptyAround(Quote(Resolve(lib, inv)));
  }


  /** Text that starts with the start marker opens at once. */
  lemma MarkerOpensText()
    ensures OpensAfter("")
  {
    assert "" + StartMarker == StartMarker;
    MarkerCharacters();
    assert OccursAt(StartMarker, StartMarker, 0);
  }

  /** The pass on the quoted value `"` start marker, `m`, end marker `"`, and the loop's end. */
  lemma SecondPass(m: string)
    requires forall k :: 0 <= k < |m| ==> m[k] in OneLineRest
    ensures ReplaceAll(Moment, Quote(StartMarker + m + EndMarker)) == Ok("\"\"undefined\"\"")
  {
    var v := StartMarker + m + EndMarker;
    assert Quote(v) == "\"" + Invocation(m) + "\"";
    MarkerCharacters();
    FirstAfterPrefix("\"", StartMarker, "");
    assert "\"" + StartMarker + "" == "\"" + StartMarker;
    RestChars(m);
    PassAt(Moment, "\"", m, "\"");
    UnnamedValue(m);
    ReplaceAllContinues(Moment, Quote(v));
    DoublyQuoted();
  }

  /** The second pass's result: `undefined` quoted inside the quotes the first pass left. */
  lemma DoublyQuoted()
    ensures "\"" + Quote("undefined") + "\"" == "\"\"undefined\"\""
    ensures !Contains("\"\"undefined\"\"", StartMarker)
  {
    NoBraceNoMarker("\"\"undefined\"\"");
  }

  /** Text made of the rest's characters holds no `}`, no line feed and no first letter of a library name. */
  lemma RestChars(m: string)
    requires forall k :: 0 <= k < |m| ==> m[k] in OneLineRest
    ensures '}' !in m && '\n' !in m
    ensures forall k :: 0 <= k < |m| ==> !Starter(m[k])
  {
    assert forall c :: c in OneLineRest ==> c == ' ' || c == '\'' || c == 'x';
  }

  /** The value's own table names no library, so it resolves to `undefined`. */
  lemma UnnamedValue(m: string)
    requires forall k :: 0 <= k < |m| ==> m[k] in OneLineRest
    ensures Resolve(Moment, StartMarker + m + EndMarker) == "undefined"
  {
    var v := StartMarker + m + EndMarker;
    RestChars(m);
    MarkersOneLine();
    assert '\n' !in v;
    SplitNoSep(v, '\n');
    MarkerUnopened();
    EndUnopened();
    StarterFreeUnopened(m);
    UnopenedConcat(StartMarker, m);
    UnopenedConcat(StartMarker + m, EndMarker);
    NoLibraryIn(v);
    ResolveUnnamed(Moment, v);
  }

  /** The one line sets moment's entry, and nothing else is in the table. */
  lemma OneLineResolves()
    ensures Resolve(Moment, OneLineInvocation) == OneLineValue
  {
    MarkersOneLine();
    RestChars(OneLineRest);
    OneLineFree();
    SplitNoSep(OneLineInvocation, '\n');
    OneLineParses();
    OnlyLine(OneLineInvocation, OneLineValue);
  }

  lemma OneLineFree()
    requires '\n' !in StartMarker && '\n' !in EndMarker && '\n' !in OneLineRest
    ensures '\n' !in OneLineInvocation
  {
  }

  /** An invocation of one line that sets moment's entry to a non-empty value resolves to it. */
  lemma OnlyLine(inv: string, v: string)
    requires Split(inv, '\n') == [inv] && ParseLine(inv) == Some((Moment, v))
    ensures Resolve(Moment, inv) == v
  {
    OnlyEntry(inv, v);
    CascadeNoFallback(Moment, BuildMap([inv]));
    ResolveThroughLines(Moment, inv, [inv]);
  }

  /** The table of that one line holds its entry. */
  lemma OnlyEntry(inv: string, v: string)
    requires ParseLine(inv) == Some((Moment, v))
    ensures Entry(BuildMap([inv]), Moment) == Some(v)
  {
    var es := ParseLines([inv]);
    assert es[0] == ParseLine([inv][0]);
    LastWins(es, 0);
  }

  /** The one line parses to moment and the value with the markers in it. */
  lemma OneLineParses()
    ensures ParseLine(OneLineInvocation) == Some((Moment, OneLineValue))
  {
    var x, z := StartMarker + " ", OneLineRest + EndMarker;
    CutAround(StartMarker, " ", Moment, ":", OneLineRest, EndMarker);
    MarkerUnopened();
    UnopenedConcat(StartMarker, " ");
    MarkerStripped();
    TablePieces();
    ParseAfterUnopened(OneLineInvocation, x, Moment, z);
    MarkedValue(OneLineLeft);
    LeftoverText();
  }

  /** Deleting the quotes from what is left gives two spaces, `x` and a space. */
  lemma LeftoverText()
    ensures RemoveChars(OneLineLeft, Stripped) == "  x "
  {
    assert OneLineLeft == "  " + "'" + "x" + "'" + " ";
    QuotesAround("  ", "x", " ", '\'');
    assert "  " + "x" + " " == "  x ";
  }

  /** Deleting two quotes from between pieces that hold none leaves the pieces. */
  lemma QuotesAround(a: string, b: string, c: string, q: char)
    requires q in Stripped
    requires forall k :: 0 <= k < |a| ==> a[k] !in Stripped
    requires forall k :: 0 <= k < |b| ==> b[k] !in Stripped
    requires forall k :: 0 <= k < |c| ==> c[k] !in Stripped
    ensures RemoveChars(a + [q] + b + [q] + c, Stripped) == a + b + c
  {
    DropStripped(a + [q] + b, c, q);
    DropStripped(a, b, q);
  }

  /** A deleted character between two pieces goes, and each piece is treated on its own. */
  lemma DropStripped(x: string, y: string, q: char)
    requires q in Stripped
    ensures RemoveChars(x + [q] + y, Stripped) == RemoveChars(x, Stripped) + RemoveChars(y, Stripped)
  {
    RemoveCharsConcat(x + [q], y, Stripped);
    RemoveCharsConcat(x, [q], Stripped);
    assert RemoveChars([q], Stripped) == [];
    assert RemoveChars(x, Stripped) + [] == RemoveChars(x, Stripped);
  }

  /** The start marker, cut where no library name could begin. */
  lemma MarkerUnopened()
    ensures Unopened(StartMarker)
  {
    var a, b, c, d, e := "{props.__", "willBe", "Replace", "dGetFor", "matString({";
    MarkerPieces(a, b, c, d, e);
    UnopenedConcat(a, b);
    UnopenedConcat(a + b, c);
    UnopenedConcat(a + b + c, d);
    UnopenedConcat(a + b + c + d, e);
  }

  lemma MarkerPieces(a: string, b: string, c: string, d: string, e: string)
    requires a == "{props.__" && b == "willBe" && c == "Replace" && d == "dGetFor" && e == "matString({"
    ensures StartMarker == a + b + c + d + e
    ensures Unopened(a) && Unopened(b) && Unopened(c) && Unopened(d) && Unopened(e)
  {
    FrontPiecesUnopened(a, b, c);
    BackPiecesUnopened(d, e);
  }

  lemma FrontPiecesUnopened(a: string, b: string, c: string)
    requires a == "{props.__" && b == "willBe" && c == "Replace"
    ensures Unopened(a) && Unopened(b) && Unopened(c)
  {
  }

  lemma BackPiecesUnopened(d: string, e: string)
    requires d == "dGetFor" && e == "matString({"
    ensures Unopened(d) && Unopened(e)
  {
  }

  lemma EndUnopened()
    ensures Unopened(EndMarker)
  {
  }

  /** The markers hold no quote or comma, the start marker no colon, and they begin and end with a brace. */
  lemma MarkerStripped()
    ensures forall k :: 0 <= k < |StartMarker| ==> StartMarker[k] !in Stripped && StartMarker[k] != ':'
    ensures forall k :: 0 <= k < |EndMarker| ==> EndMarker[k] !in Stripped
    ensures StartMarker[0] == '{' && EndMarker[|EndMarker| - 1] == '}'
  {
  }

  /** A library name in lower case after an unopened prefix is the match. */
  lemma TokenAfterUnopened(line: string, x: string, tok: string, rest: string)
    requires line == x + tok + rest && tok in LibTokens && Unopened(x)
    ensures LibMatch(line) == Some(Match(|x|, tok))
  {
    assert line == x + (tok + rest);
    NoTokenInUnopened(line, x, tok + rest);
    TokenAfterPrefix(line, x, tok, rest);
    FirstTokenAt(line, |x|, tok);
  }

  /**
   A line whose first library name, in lower case, is followed by the first
   colon: the key is the name and the value is what is left around the two.
   */
  lemma ParseAfterUnopened(line: string, x: string, tok: string, z: string)
    requires line == x + tok + (":" + z) && tok in LibTokens && Unopened(x) && ':' !in x
    ensures ParseLine(line) == Some((tok, Trim(RemoveChars(x + z, Stripped))))
  {
    TokenAfterUnopened(line, x, tok, ":" + z);
    ValueAfterColon(line, x, tok, z);
    KeyOfLowerCaseToken(tok);
    ParseLineOfMatch(line, Match(|x|, tok));
  }

  /** Lines 61-63 on a line whose match is followed by the first colon: both are cut out. */
  lemma ValueAfterColon(line: string, x: string, tok: string, z: string)
    requires line == x + tok + (":" + z) && LibMatch(line) == Some(Match(|x|, tok)) && ':' !in x
    ensures LineValue(line, tok) == Trim(RemoveChars(x + z, Stripped))
  {
    TokenCut(line, x, tok, ":" + z);
    ColonCut(x, z);
  }

  /** The match is cut out where it was found. */
  lemma TokenCut(line: string, x: string, tok: string, rest: string)
    requires line == x + tok + rest && LibMatch(line) == Some(Match(|x|, tok))
    ensures ReplaceFirst(line, tok, "") == x + rest
  {
    TokenRemovedAtMatch(line);
    Slices3(x, tok, rest);
  }

  /** The first colon is the one after `x`. */
  lemma ColonCut(x: string, z: string)
    requires ':' !in x
    ensures ReplaceFirst(x + (":" + z), ":", "") == x + z
  {
    FirstAfterPrefix(x, ":", z);
    Associative(x, ":", z);
    ReplaceFirstAt(x + ":" + z, ":", "", |x|);
    Slices3(x, ":", z);
  }

  /** Lines 64-65 on a value between the markers: the markers stay and nothing is trimmed. */
  lemma MarkedValue(m: string)
    ensures Trim(RemoveChars(StartMarker + m + EndMarker, Stripped))
            == StartMarker + RemoveChars(m, Stripped) + EndMarker
  {
    MarkerStripped();
    BracedValue(StartMarker, m, EndMarker);
  }

  /** Text between a brace-opened and a brace-closed piece, neither holding a quote or comma. */
  lemma BracedValue(a: string, m: string, b: string)
    requires forall k :: 0 <= k < |a| ==> a[k] !in Stripped
    requires forall k :: 0 <= k < |b| ==> b[k] !in Stripped
    requires |a| > 0 && a[0] == '{' && |b| > 0 && b[|b| - 1] == '}'
    ensures Trim(RemoveChars(a + m + b, Stripped)) == a + RemoveChars(m, Stripped) + b
  {
    RemoveCharsConcat(a + m, b, Stripped);
    RemoveCharsConcat(a, m, Stripped);
    var v := a + RemoveChars(m, Stripped) + b;
    assert v[0] == '{' && v[|v| - 1] == '}';
    TrimPadded("", v, "");
    assert "" + v + "" == v;
  }

  // ---------------------------------------------------------------------------
  // An entry on the start marker's line, with the end marker on the next line
  // ---------------------------------------------------------------------------

  const MarkerLineRest: string := " 'x'"

  /** The table: ` moment: 'x'` on the start marker's line, then a line break. */
  const MarkerLineBody: string := " " + Moment + ":" + MarkerLineRest + "\n"
  const MarkerLineInvocation: string := Invocation(MarkerLineBody)

  /** The invocation's first line, which holds the start marker and the entry. */
  const MarkerLineFirst: string := StartMarker + " " + Moment + ":" + MarkerLineRest

  /** The snippet: two characters and then the invocation. */
  const MarkerLineInput: string := "ab" + MarkerLineInvocation

  /** The format moment's entry gets: the start marker, two spaces and `x`. */
  const MarkerLineFormat: string := StartMarker + "  x"

  /**
   The loop as written never ends on this terminated invocation: the first
   pass puts the quoted format in its place, which leaves a start marker at
   index 3 with no end marker after it, and from there every pass prepends
   `"undefined"`.
   */
  lemma MarkerLineHangs(n: nat)
    ensures Resolve(Moment, MarkerLineInvocation) == MarkerLineFormat
    ensures Contains(AsWritten.PassesAsWritten(Moment, MarkerLineInput, n), StartMarker)
  {
    MarkerLineFirstPass();
    AsWritten.StuckAfterFirstPass(Moment, MarkerLineInput, n);
  }

  /** The modelled rewrite reports the unterminated marker the first pass leaves. */
  lemma MarkerLineReported()
    ensures ReplaceAll(Moment, MarkerLineInput) == Err(Unterminated)
  {
    MarkerLineFirstPass();
    AsWritten.StuckAfterFirstPass(Moment, MarkerLineInput, 0);
  }

  /** The first pass is located and leaves stuck text. */
  lemma MarkerLineFirstPass()
    ensures Resolve(Moment, MarkerLineInvocation) == MarkerLineFormat
    ensures LocateSpan(MarkerLineInput).Ok?
    ensures Step(Moment, MarkerLineInput) == Ok("ab" + Quote(MarkerLineFormat))
    ensures AsWritten.Stuck(Step(Moment, MarkerLineInput).value)
  {
    MarkerLineResolves();
    OpensBehind("ab");
    NoBraceInMarkerLine();
    StepBehind(Moment, "ab", MarkerLineBody);
    AsWritten.StuckQuoted("ab", "  x");
  }

  lemma NoBraceInMarkerLine()
    ensures '}' !in MarkerLineBody && '{' !in "ab" && '}' !in "ab" && '}' !in "  x"
  {
  }

  /** A pass on an invocation behind text that opens it, with nothing after it. */
  lemma StepBehind(lib: string, g: string, body: string)
    requires OpensAfter(g) && '}' !in body
    ensures Step(lib, g + Invocation(body)) == Ok(g + Quote(Resolve(lib, Invocation(body))))
  {
    PassAt(lib, g, body, "");
    assert g + Invocation(body) + "" == g + Invocation(body);
    assert g + Quote(Resolve(lib, Invocation(body))) + "" == g + Quote(Resolve(lib, Invocation(body)));
  }

  /** The first line sets moment's entry, and the closing line sets none. */
  lemma MarkerLineResolves()
    ensures Resolve(Moment, MarkerLineInvocation) == MarkerLineFormat
  {
    MarkerLineSplits();
    MarkerLineParses();
    EndLineDropped();
    FirstOfTwo(MarkerLineFirst, EndMarker, MarkerLineFormat);
    CascadeNoFallback(Moment, BuildMap([MarkerLineFirst, EndMarker]));
    ResolveThroughLines(Moment, MarkerLineInvocation, [MarkerLineFirst, EndMarker]);
  }

  /** Of two lines, the first setting moment's entry and the second dropped, the table holds the first's. */
  lemma FirstOfTwo(l1: string, l2: string, v: string)
    requires ParseLine(l1) == Some((Moment, v)) && ParseLine(l2) == None
    ensures Entry(BuildMap([l1, l2]), Moment) == Some(v)
  {
    var es := ParseLines([l1, l2]);
    assert es[0] == ParseLine([l1, l2][0]) && es[1] == ParseLine([l1, l2][1]);
    FirstKept(es, v);
  }

  lemma FirstKept(es: seq<ParsedLine>, v: string)
    requires |es| == 2 && es[0] == Some((Moment, v)) && es[1] == None
    ensures Entry(Fold(es), Moment) == Some(v)
  {
    assert !HasKey(es[1], Moment);
    LastWins(es, 0);
  }

  /** The invocation splits into its first line and the end marker. */
  lemma MarkerLineSplits()
    ensures Split(MarkerLineInvocation, '\n') == [MarkerLineFirst, EndMarker]
  {
    MarkersOneLine();
    FirstLineFree();
    LineBreakAfter(StartMarker, " ", Moment, ":", MarkerLineRest, "\n", EndMarker);
    SplitTwo(MarkerLineInvocation, MarkerLineFirst, EndMarker, '\n', "\n");
  }

  lemma FirstLineFree()
    requires '\n' !in StartMarker
    ensures '\n' !in MarkerLineFirst
  {
  }

  /** Two lines free of the separator, joined by it, split back into themselves. */
  lemma SplitTwo(s: string, a: string, b: string, sep: char, nl: string)
    requires nl == [sep] && s == a + nl + b && sep !in a && sep !in b
    ensures Split(s, sep) == [a, b]
  {
    JoinCons(a, [b], sep);
    assert Join([b], sep) == b;
    assert [a] + [b] == [a, b];
    SplitJoin([a, b], sep);
  }

  /** The first line parses to moment and the format with the start marker in it. */
  lemma MarkerLineParses()
    ensures ParseLine(MarkerLineFirst) == Some((Moment, MarkerLineFormat))
  {
    CutToken(StartMarker, " ", Moment, ":", MarkerLineRest);
    MarkerUnopened();
    UnopenedConcat(StartMarker, " ");
    MarkerStripped();
    TablePieces();
    ParseAfterUnopened(MarkerLineFirst, StartMarker + " ", Moment, MarkerLineRest);
    FormatLeft();
    OpenedValue(StartMarker, " " + MarkerLineRest);
  }

  /** Deleting the quotes from what is left of the line gives two spaces and `x`. */
  lemma FormatLeft()
    ensures RemoveChars(" " + MarkerLineRest, Stripped) == "  x"
    ensures !IsWhitespace('x')
  {
    assert " " + MarkerLineRest == "  " + "'" + "x" + "'" + "";
    QuotesAround("  ", "x", "", '\'');
    assert "  " + "x" + "" == "  x";
  }

  /**
   Lines 64-65 on a value that starts with a piece opened by `{` holding no
   quote or comma: what the delete leaves is not trimmed when it ends in a
   character other than whitespace.
   */
  lemma OpenedValue(a: string, m: string)
    requires forall k :: 0 <= k < |a| ==> a[k] !in Stripped
    requires |a| > 0 && a[0] == '{'
    requires |RemoveChars(m, Stripped)| > 0 && !IsWhitespace(RemoveChars(m, Stripped)[|RemoveChars(m, Stripped)| - 1])
    ensures Trim(RemoveChars(a + m, Stripped)) == a + RemoveChars(m, Stripped)
  {
    RemoveCharsConcat(a, m, Stripped);
    var r := RemoveChars(m, Stripped);
    TrimOpened(a + r, r);
  }

  /** Text that opens with `{` and ends like `r` in a character other than whitespace is not trimmed. */
  lemma TrimOpened(v: string, r: string)
    requires |v| > 0 && v[0] == '{' && |r| > 0 && |r| <= |v| && v[|v| - |r|..] == r && !IsWhitespace(r[|r| - 1])
    ensures Trim(v) == v
  {
    assert v[|v| - 1] == r[|r| - 1];
    TrimPadded("", v, "");
    EmptyAround(v);
  }
}

=== FILE: snippets.dfy ===
/**
 The snippet transformer: finds each `{props.__willBeReplacedGetFormatString({ ... })}`
 invocation in a documentation snippet, reads the per-library format table
 written inside it line by line, resolves it for the target library and puts
 the resolved format back as a double-quoted string literal.
 */
module Snippets {
  import opened Wrappers
  import opened Strings
  import opened Formats

  const StartMarker: string := "{props.__willBeReplacedGetFormatString({"
  const EndMarker: string := "})}"

  /** The alternatives of `libRegex`, in the order the pattern lists them. */
  const LibTokens: seq<string> := ["moment", "luxon", "date-fns", "datefns", "dayjs"]

  /** The characters deleted from a format value: double quote, single quote, comma. */
  const Stripped: set<char> := {'"', '\'', ','}

  // ---------------------------------------------------------------------------
  // Case-insensitive token matching (`libRegex` with the `i` flag)
  // ---------------------------------------------------------------------------

  /** ASCII case folding, the part of the `i` flag the format tables need. */
  function Lower(c: char): char {
    if 'A' <= c <= 'Z' then (c as int + 32) as char else c
  }

  function LowerStr(s: string): (r: string)
    ensures |r| == |s|
    ensures forall k :: 0 <= k < |s| ==> r[k] == Lower(s[k])
  {
    seq(|s|, k requires 0 <= k < |s| => Lower(s[k]))
  }

  /** The text at `i` spells `tok` up to case. */
  predicate MatchesAt(line: string, tok: string, i: int) {
    0 <= i && i + |tok| <= |line| && LowerStr(line[i..i + |tok|]) == tok
  }

  /** Some alternative of `toks` matches at `i`. */
  predicate AnyMatchAt(line: string, toks: seq<string>, i: int) {
    exists k | 0 <= k < |toks| :: MatchesAt(line, toks[k], i)
  }

  /** Some alternative of `libRegex` matches at `i`. */
  predicate TokenStartsAt(line: string, i: int) {
    AnyMatchAt(line, LibTokens, i)
  }

  /** `text` is one of the library names in some letter case. */
  predicate IsLibToken(text: string) {
    LowerStr(text) in LibTokens
  }

  /** The text matched at `i` by the first alternative of `toks` that matches there. */
  function TokenAt(line: string, i: nat, toks: seq<string>): (r: Option<string>)
    ensures r.Some? ==> i + |r.value| <= |line| && r.value == line[i..i + |r.value|] && LowerStr(r.value) in toks
    ensures r.None? ==> !AnyMatchAt(line, toks, i)
    decreases |toks|
  {
    if |toks| == 0 then None
    else if MatchesAt(line, toks[0], i) then Some(line[i..i + |toks[0]|])
    else
      var r := TokenAt(line, i, toks[1..]);
      assert forall k :: 1 <= k < |toks| ==> toks[k] == toks[1..][k - 1];
      r
  }

  /** A match of `libRegex`: where it starts and the text it covers. */
  datatype Match = Match(pos: nat, text: string)

  /** The leftmost match of the alternatives `toks` at or after `from`. */
  function FirstMatchFrom(line: string, from: nat, toks: seq<string>): (r: Option<Match>)
    ensures r.Some? ==> from <= r.value.pos
    decreases |line| - from
  {
    if |line| <= from then None
    else match TokenAt(line, from, toks)
      case Some(t) => Some(Match(from, t))
      case None => FirstMatchFrom(line, from + 1, toks)
  }

  /** The text the search reports is one of the alternatives as written in the line. */
  lemma {:induction false} FirstMatchText(line: string, from: nat, toks: seq<string>)
    requires FirstMatchFrom(line, from, toks).Some?
    ensures var mt := FirstMatchFrom(line, from, toks).value;
            && mt.pos + |mt.text| <= |line|
            && mt.text == line[mt.pos..mt.pos + |mt.text|]
            && LowerStr(mt.text) in toks
    decreases |line| - from
  {
    if TokenAt(line, from, toks).None? {
      FirstMatchText(line, from + 1, toks);
    }
  }

  /** No alternative matches between `from` and the reported position. */
  lemma {:induction false} FirstMatchLeftmost(line: string, from: nat, toks: seq<string>)
    requires FirstMatchFrom(line, from, toks).Some?
    ensures forall j :: from <= j < FirstMatchFrom(line, from, toks).value.pos ==> !AnyMatchAt(line, toks, j)
    decreases |line| - from
  {
    if TokenAt(line, from, toks).None? {
      FirstMatchLeftmost(line, from + 1, toks);
    }
  }

  /** When the search reports nothing, no alternative matches anywhere from `from` on. */
  lemma {:induction false} FirstMatchNone(line: string, from: nat, toks: seq<string>)
    requires forall k :: 0 <= k < |toks| ==> |toks[k]| > 0
    requires FirstMatchFrom(line, from, toks).None?
    ensures forall j :: from <= j ==> !AnyMatchAt(line, toks, j)
    decreases |line| - from
  {
    if |line| > from {
      FirstMatchNone(line, from + 1, toks);
    }
  }

  /** The leftmost match of the alternatives `toks`, none of which is empty. */
  function FirstMatch(line: string, toks: seq<string>): (r: Option<Match>)
    requires forall k :: 0 <= k < |toks| ==> |toks[k]| > 0
    ensures r.Some? <==> exists j | 0 <= j <= |line| :: AnyMatchAt(line, toks, j)
    ensures r.Some? ==>
              && r.value.pos + |r.value.text| <= |line|
              && r.value.text == line[r.value.pos..r.value.pos + |r.value.text|]
              && LowerStr(r.value.text) in toks
              && AnyMatchAt(line, toks, r.value.pos)
              && forall j :: 0 <= j < r.value.pos ==> !AnyMatchAt(line, toks, j)
  {
    FirstMatchFacts(line, toks);
    FirstMatchFrom(line, 0, toks)
  }

  /** The contract of `FirstMatch`, about the search from position 0. */
  lemma FirstMatchFacts(line: string, toks: seq<string>)
    requires forall k :: 0 <= k < |toks| ==> |toks[k]| > 0
    ensures var r := FirstMatchFrom(line, 0, toks);
            && (r.Some? <==> exists j | 0 <= j <= |line| :: AnyMatchAt(line, toks, j))
            && (r.Some? ==>
                  && r.value.pos + |r.value.text| <= |line|
                  && r.value.text == line[r.value.pos..r.value.pos + |r.value.text|]
                  && LowerStr(r.value.text) in toks
                  && AnyMatchAt(line, toks, r.value.pos)
                  && forall j :: 0 <= j < r.value.pos ==> !AnyMatchAt(line, toks, j))
  {
    var r := FirstMatchFrom(line, 0, toks);
    if r.Some? {
      FirstMatchText(line, 0, toks);
      FirstMatchLeftmost(line, 0, toks);
      MatchedTextMatches(line, r.value.pos, r.value.text, toks);
    } else {
      FirstMatchNone(line, 0, toks);
    }
  }

  /** Where an alternative was matched, that alternative matches. */
  lemma MatchedTextMatches(line: string, pos: nat, text: string, toks: seq<string>)
    requires pos + |text| <= |line| && text == line[pos..pos + |text|] && LowerStr(text) in toks
    ensures pos <= |line| && AnyMatchAt(line, toks, pos)
  {
    var k :| 0 <= k < |toks| && LowerStr(text) == toks[k];
    assert MatchesAt(line, toks[k], pos);
  }

  lemma LibTokensNonEmpty()
    ensures forall k :: 0 <= k < |LibTokens| ==> |LibTokens[k]| > 0
  {
  }

  /** `formatLine.match(libRegex)`. */
  function LibMatch(line: string): (r: Option<Match>)
    ensures r.Some? <==> exists j | 0 <= j <= |line| :: TokenStartsAt(line, j)
    ensures r.Some? ==>
              && r.value.pos + |r.value.text| <= |line|
              && r.value.text == line[r.value.pos..r.value.pos + |r.value.text|]
              && IsLibToken(r.value.text)
              && TokenStartsAt(line, r.value.pos)
              && forall j :: 0 <= j < r.value.pos ==> !TokenStartsAt(line, j)
  {
    LibTokensNonEmpty();
    var r := FirstMatch(line, LibTokens);
    if r.Some? then
      assert TokenStartsAt(line, r.value.pos);
      r
    else
      assert forall j :: 0 <= j <= |line| ==> !TokenStartsAt(line, j);
      r
  }

  // ---------------------------------------------------------------------------
  // One line of the format table
  // ---------------------------------------------------------------------------

  /** `lib.replace('dateFns', 'date-fns')`. */
  function NormalizeKey(text: string): string {
    ReplaceFirst(text, "dateFns", "date-fns")
  }

  /**
   The value of a table line once its token `tok` is known (lines 61-65): it
   is clean, and when the token occurs in the line it is shorter than the
   line by at least the token.
   */
  function LineValue(line: string, tok: string): (r: string)
    ensures Clean(r)
    ensures Contains(line, tok) ==> |r| + |tok| <= |line|
  {
    var a := ReplaceFirst(line, tok, "");
    var b := ReplaceFirst(a, ":", "");
    ReplaceFirstLength(line, tok, "");
    ReplaceFirstLength(a, ":", "");
    Trim(RemoveChars(b, Stripped))
  }

  /** A value as the line parse leaves it: no quote or comma, no whitespace at either end. */
  predicate Clean(v: string) {
    (forall k :: 0 <= k < |v| ==> v[k] !in Stripped)
    && (v == [] || (!IsWhitespace(v[0]) && !IsWhitespace(v[|v| - 1])))
  }

  /**
   One line of the table as a (key, value) pair; `None` for a line the
   `libRegex.test` filter drops.
   */
  function ParseLine(line: string): (r: Option<(string, string)>)
    ensures r.Some? <==> exists j | 0 <= j <= |line| :: TokenStartsAt(line, j)
    ensures r.Some? ==> Clean(r.value.1) && |r.value.1| + 5 <= |line|
  {
    match LibMatch(line)
    case None => None
    case Some(mt) =>
      assert OccursAt(line, mt.text, mt.pos);
      LibTokenLength(mt.text);
      Some((NormalizeKey(mt.text), LineValue(line, mt.text)))
  }

  /** Every spelling of a library name has at least five characters. */
  lemma LibTokenLength(text: string)
    requires IsLibToken(text)
    ensures |text| >= 5
  {
    assert |LowerStr(text)| == |text|;
  }

  /**
   The token is deleted where the case-insensitive match found it: its first
   exact occurrence cannot lie further left than the leftmost match.
   */
  lemma TokenRemovedAtMatch(line: string)
    requires LibMatch(line).Some?
    ensures var mt := LibMatch(line).value;
            ReplaceFirst(line, mt.text, "") == line[..mt.pos] + line[mt.pos + |mt.text|..]
  {
    var mt := LibMatch(line).value;
    LeftmostIsFirstExact(line, mt.pos, mt.text);
    ReplaceFirstAt(line, mt.text, "", mt.pos);
  }

  /** Every exact occurrence of a library token is also a case-insensitive match there. */
  lemma LeftmostIsFirstExact(line: string, pos: nat, text: string)
    requires pos + |text| <= |line| && text == line[pos..pos + |text|] && IsLibToken(text)
    requires forall j :: 0 <= j < pos ==> !TokenStartsAt(line, j)
    ensures FirstFrom(line, text, 0, pos)
  {
    var k :| 0 <= k < |LibTokens| && LowerStr(text) == LibTokens[k];
    forall j | 0 <= j < pos ensures !OccursAt(line, text, j) {
      assert !TokenStartsAt(line, j);
      assert OccursAt(line, text, j) ==> MatchesAt(line, LibTokens[k], j);
    }
  }

  /** Only the exact spelling `dateFns` is renamed; `DateFns`, `datefns`, `Moment` stay as written. */
  lemma NormalizeKeyOnlyDateFns(text: string)
    requires IsLibToken(text)
    ensures NormalizeKey(text) == if text == "dateFns" then "date-fns" else text
  {
    var pat := "dateFns";
    if text == pat {
      assert OccursAt(text, pat, 0);
      ReplaceFirstAt(text, pat, "date-fns", 0);
    } else {
      var low := LowerStr(text);
      assert |text| <= 8;
      forall i | 0 <= i <= |text| ensures !OccursAt(text, pat, i) {
        if i + |pat| <= |text| {
          if |text| == 7 {
            assert text[0..7] == text;
          } else {
            assert low == "date-fns";
            if i == 0 {
              assert Lower(text[4]) == '-';
              assert text[0..7][4] != pat[4];
            } else {
              assert Lower(text[1]) == 'a';
              assert text[1..8][0] != pat[0];
            }
          }
        }
      }
      ReplaceFirstAbsent(text, pat, "date-fns");
    }
  }

  /** The key of a kept line is the leftmost matched token, renamed only when it reads `dateFns`. */
  lemma ParseLineKey(line: string)
    requires LibMatch(line).Some?
    ensures var mt := LibMatch(line).value;
            && ParseLine(line).Some?
            && ParseLine(line).value.0 == (if mt.text == "dateFns" then "date-fns" else mt.text)
            && ParseLine(line).value.1 == LineValue(line, mt.text)
  {
    NormalizeKeyOnlyDateFns(LibMatch(line).value.text);
  }

  /** A character of a matched token, read through the case folding. */
  lemma MatchesAtChar(line: string, tok: string, j: int, k: nat)
    requires k < |tok|
    ensures MatchesAt(line, tok, j) ==> j + k < |line| && Lower(line[j + k]) == tok[k]
  {
    if MatchesAt(line, tok, j) {
      assert LowerStr(line[j..j + |tok|])[k] == Lower(line[j + k]);
    }
  }

  /** The library names are written in lower case. */
  lemma LibTokensLowerCase()
    ensures forall t :: t in LibTokens ==> LowerStr(t) == t
  {
  }

  /**
   At most one alternative of `libRegex` can match at a position, so the
   order of the alternatives never changes what is matched.
   */
  lemma OneTokenPerPosition(line: string, j: int, t1: string, t2: string)
    requires t1 in LibTokens && t2 in LibTokens
    requires MatchesAt(line, t1, j) && MatchesAt(line, t2, j)
    ensures t1 == t2
  {
    MatchesAtChar(line, t1, j, 0);
    MatchesAtChar(line, t2, j, 0);
    MatchesAtChar(line, t1, j, 2);
    MatchesAtChar(line, t2, j, 2);
    MatchesAtChar(line, t1, j, 4);
    MatchesAtChar(line, t2, j, 4);
  }

  /** A library name can only start at `c` followed by `d` when the two are its first two letters. */
  predicate Opener(c: char, d: char) {
    || (Lower(c) == 'm' && Lower(d) == 'o')
    || (Lower(c) == 'l' && Lower(d) == 'u')
    || (Lower(c) == 'd' && Lower(d) == 'a')
  }

  /** `c` is the first letter of some library name, up to case. */
  predicate Starter(c: char) {
    Lower(c) == 'm' || Lower(c) == 'l' || Lower(c) == 'd'
  }

  /** No neighbouring pair of `x` opens a library name, and its last character starts none. */
  predicate Unopened(x: string) {
    && (forall j :: 0 <= j < |x| - 1 ==> !Opener(x[j], x[j + 1]))
    && (|x| > 0 ==> !Starter(x[|x| - 1]))
  }

  /** Text no character of which is a first letter of a library name is unopened. */
  lemma StarterFreeUnopened(s: string)
    requires forall k :: 0 <= k < |s| ==> !Starter(s[k])
    ensures Unopened(s)
  {
  }

  /** The seam between two unopened texts opens nothing: the left one ends in no first letter. */
  lemma UnopenedConcat(a: string, b: string)
    requires Unopened(a) && Unopened(b)
    ensures Unopened(a + b)
  {
    var s := a + b;
    forall j | 0 <= j < |s| - 1 ensures !Opener(s[j], s[j + 1]) {
      if j < |a| - 1 {
        assert s[j] == a[j] && s[j + 1] == a[j + 1];
      } else if j == |a| - 1 {
        assert s[j] == a[j];
      } else {
        assert s[j] == b[j - |a|] && s[j + 1] == b[j + 1 - |a|];
      }
    }
  }

  /** No library name starts inside an unopened prefix, whatever follows it. */
  lemma NoTokenInUnopened(line: string, x: string, rest: string)
    requires line == x + rest && Unopened(x)
    ensures forall j :: 0 <= j < |x| ==> !TokenStartsAt(line, j)
  {
    forall j | 0 <= j < |x| ensures !TokenStartsAt(line, j) {
      assert line[j] == x[j];
      if j + 1 < |x| {
        assert line[j + 1] == x[j + 1];
      }
      forall k | 0 <= k < |LibTokens| ensures !MatchesAt(line, LibTokens[k], j) {
        MatchesAtChar(line, LibTokens[k], j, 0);
        MatchesAtChar(line, LibTokens[k], j, 1);
      }
    }
  }

  /** An unopened line names no library. */
  lemma NoLibraryIn(line: string)
    requires Unopened(line)
    ensures LibMatch(line) == None
  {
    NoTokenInUnopened(line, line, "");
    assert line + "" == line;
    forall k | 0 <= k < |LibTokens| ensures !MatchesAt(line, LibTokens[k], |line|) {
      MatchesAtChar(line, LibTokens[k], |line|, 0);
    }
  }

  /** Characters that may surround a key or a value in a table line: whitespace, quotes, commas. */
  predicate Padding(s: string) {
    forall k :: 0 <= k < |s| ==> IsWhitespace(s[k]) || s[k] in Stripped
  }

  /** No token can start inside padding. */
  lemma NoTokenInPadding(line: string, pre: string, j: nat)
    requires Padding(pre) && j < |pre| <= |line| && line[..|pre|] == pre
    ensures !TokenStartsAt(line, j)
  {
    assert line[j] == pre[j];
    forall k | 0 <= k < |LibTokens| ensures !MatchesAt(line, LibTokens[k], j) {
      MatchesAtChar(line, LibTokens[k], j, 0);
    }
  }

  /** Padding holds no colon. */
  lemma NoColonInPadding(x: string)
    requires Padding(x)
    ensures ':' !in x
  {
  }

  /** Deleting quotes and commas from padding leaves only whitespace. */
  lemma RemoveCharsPadding(x: string)
    requires Padding(x)
    ensures AllWhitespace(RemoveChars(x, Stripped))
  {
    var r := RemoveChars(x, Stripped);
    forall k | 0 <= k < |r| ensures IsWhitespace(r[k]) {
      var c := r[k];
      assert c in x && c !in Stripped;
      var i :| 0 <= i < |x| && x[i] == c;
    }
  }

  /** A library name in lower case right after padding is the leftmost match. */
  lemma LeadingTokenMatch(line: string, pre: string, tok: string, rest: string)
    requires line == pre + tok + rest
    requires tok in LibTokens && Padding(pre)
    ensures LibMatch(line) == Some(Match(|pre|, tok))
  {
    TokenAfterPrefix(line, pre, tok, rest);
    NoTokenInPrefix(line, pre, tok, rest);
    FirstTokenAt(line, |pre|, tok);
  }

  lemma TokenAfterPrefix(line: string, pre: string, tok: string, rest: string)
    requires line == pre + tok + rest
    ensures |pre| + |tok| <= |line| && line[|pre|..|pre| + |tok|] == tok
  {
  }

  lemma NoTokenInPrefix(line: string, pre: string, tok: string, rest: string)
    requires line == pre + tok + rest
    requires Padding(pre)
    ensures forall j :: 0 <= j < |pre| ==> !TokenStartsAt(line, j)
  {
    assert line[..|pre|] == pre;
    forall j | 0 <= j < |pre| ensures !TokenStartsAt(line, j) {
      NoTokenInPadding(line, pre, j);
    }
  }

  /** A library name spelt out where no earlier position matches is the match. */
  lemma FirstTokenAt(line: string, p: nat, tok: string)
    requires tok in LibTokens && p + |tok| <= |line| && line[p..p + |tok|] == tok
    requires forall j :: 0 <= j < p ==> !TokenStartsAt(line, j)
    ensures LibMatch(line) == Some(Match(p, tok))
  {
    SpeltTokenStarts(line, p, tok);
    var mt := LibMatch(line).value;
    LeftmostUnique(line, LibTokens, p, mt.pos);
    SameTokenText(line, p, mt.text, tok);
  }

  /** Two positions that are each the leftmost match are the same position. */
  lemma LeftmostUnique(line: string, toks: seq<string>, p: nat, q: nat)
    requires AnyMatchAt(line, toks, p) && forall j :: 0 <= j < p ==> !AnyMatchAt(line, toks, j)
    requires AnyMatchAt(line, toks, q) && forall j :: 0 <= j < q ==> !AnyMatchAt(line, toks, j)
    ensures p == q
  {
  }

  /** A library name spelt out in lower case is a match of the pattern. */
  lemma SpeltTokenStarts(line: string, p: nat, tok: string)
    requires tok in LibTokens && p + |tok| <= |line| && line[p..p + |tok|] == tok
    ensures MatchesAt(line, tok, p) && TokenStartsAt(line, p)
  {
    LibTokensLowerCase();
    var k :| 0 <= k < |LibTokens| && LibTokens[k] == tok;
    assert MatchesAt(line, LibTokens[k], p);
  }

  /** The text matched at a position where a library name is spelt out is that name. */
  lemma SameTokenText(line: string, p: nat, text: string, tok: string)
    requires tok in LibTokens && p + |tok| <= |line| && line[p..p + |tok|] == tok
    requires p + |text| <= |line| && text == line[p..p + |text|] && IsLibToken(text)
    ensures text == tok
  {
    SpeltTokenStarts(line, p, tok);
    TextMatchesItself(line, p, text);
    OneTokenPerPosition(line, p, LowerStr(text), tok);
  }

  /** Matched text spells its own lower-case form. */
  lemma TextMatchesItself(line: string, pos: nat, text: string)
    requires pos + |text| <= |line| && text == line[pos..pos + |text|]
    ensures MatchesAt(line, LowerStr(text), pos)
  {
  }

  /** The first colon after padding is the one that is deleted. */
  lemma ColonAfterPadding(pre: string, rest: string)
    requires Padding(pre)
    ensures ReplaceFirst(pre + ":" + rest, ":", "") == pre + rest
  {
    var line := pre + ":" + rest;
    var c := |pre|;
    NoColonInPadding(pre);
    assert line[..c] == pre;
    assert OccursAt(line, ":", c);
    forall j | 0 <= j < c ensures !OccursAt(line, ":", j) {
      assert line[j] in pre;
    }
    ReplaceFirstAt(line, ":", "", c);
    assert line[c + 1..] == rest;
  }

  /** Deleting quotes and commas, then trimming, strips padding off a clean format. */
  lemma StripPadding(pre: string, fmt: string, post: string)
    requires Padding(pre) && Padding(post) && Clean(fmt)
    ensures Trim(RemoveChars(pre + fmt + post, Stripped)) == fmt
  {
    var w1, w2 := RemoveChars(pre, Stripped), RemoveChars(post, Stripped);
    Associative(pre, fmt, post);
    RemoveCharsConcat(pre, fmt + post, Stripped);
    RemoveCharsConcat(fmt, post, Stripped);
    assert RemoveChars(fmt, Stripped) == fmt;
    assert RemoveChars(pre + fmt + post, Stripped) == w1 + (fmt + w2);
    Associative(w1, fmt, w2);
    RemoveCharsPadding(pre);
    RemoveCharsPadding(post);
    TrimPadded(w1, fmt, w2);
  }

  /**
   The line shape the documentation tables use: padding, a library name in
   lower case, padding and a colon, padding, the format, padding; for
   instance `  'date-fns': 'yyyy-MM-dd',`. Such a line parses to the library
   name and the bare format.
   */
  lemma ParseTableLine(line: string, pre: string, tok: string, q: string, w: string, fmt: string, post: string)
    requires line == pre + tok + q + ":" + w + fmt + post
    requires tok in LibTokens
    requires Padding(pre) && Padding(q) && Padding(w) && Padding(post)
    requires Clean(fmt)
    ensures ParseLine(line) == Some((tok, fmt))
  {
    var rest := q + ":" + w + fmt + post;
    GroupLast5(pre, tok, q, ":", w, fmt, post);
    LeadingTokenMatch(line, pre, tok, rest);
    KeyOfLowerCaseToken(tok);
    TableLineValue(line, pre, tok, rest, q, w, fmt, post);
    ParseLineOfMatch(line, Match(|pre|, tok));
  }

  /** A library name in lower case is its own key. */
  lemma KeyOfLowerCaseToken(tok: string)
    requires tok in LibTokens
    ensures NormalizeKey(tok) == tok
  {
    LibTokensLowerCase();
    NormalizeKeyOnlyDateFns(tok);
  }

  /** The pair a line with a known match parses to. */
  lemma ParseLineOfMatch(line: string, mt: Match)
    requires LibMatch(line) == Some(mt)
    ensures ParseLine(line) == Some((NormalizeKey(mt.text), LineValue(line, mt.text)))
  {
  }

  /** The value part of `ParseTableLine`. */
  lemma TableLineValue(line: string, pre: string, tok: string, rest: string, q: string, w: string, fmt: string, post: string)
    requires line == pre + tok + rest && rest == q + ":" + w + fmt + post
    requires tok in LibTokens
    requires Padding(pre) && Padding(q) && Padding(w) && Padding(post)
    requires Clean(fmt)
    ensures LineValue(line, tok) == fmt
  {
    LeadingTokenMatch(line, pre, tok, rest);
    TokenRemovedAtMatch(line);
    DropMiddle(pre, tok, rest);
    RegroupAround(pre, q, ":", w, fmt, post);
    ColonAfterPadding(pre + q, w + fmt + post);
    StripPadding(pre + q + w, fmt, post);
  }

  // ---------------------------------------------------------------------------
  // The format table (filter, map and reduce of lines 51-76)
  // ---------------------------------------------------------------------------

  /** A parsed line: the (key, value) pair of a kept line, `None` for a dropped one. */
  type ParsedLine = Option<(string, string)>

  /** Lines 51-69: every line of the invocation parsed, in order. */
  function ParseLines(lines: seq<string>): (r: seq<ParsedLine>)
    ensures |r| == |lines|
    ensures forall i :: 0 <= i < |lines| ==> r[i] == ParseLine(lines[i])
    ensures forall i :: 0 <= i < |r| && r[i].Some? ==> Clean(r[i].value.1)
  {
    seq(|lines|, i requires 0 <= i < |lines| => ParseLine(lines[i]))
  }

  /** The parsed line is kept and has key `k`. */
  predicate HasKey(e: ParsedLine, k: string) {
    e.Some? && e.value.0 == k
  }

  /**
   Lines 70-76: the `reduce` that assigns each kept pair into the table in
   order. Every entry of the result comes from some kept pair.
   */
  function Fold(entries: seq<ParsedLine>): (r: FormatsMap)
    ensures forall k :: k in r ==> exists i | 0 <= i < |entries| :: entries[i] == Some((k, r[k]))
    decreases |entries|
  {
    if |entries| == 0 then map[]
    else
      var n := |entries| - 1;
      var init := entries[..n];
      var m := Fold(init);
      assert forall i :: 0 <= i < n ==> init[i] == entries[i];
      match entries[n]
      case None => m
      case Some(kv) => m[kv.0 := kv.1]
  }

  /** The table has an entry for a key exactly when some kept pair has that key. */
  lemma {:induction false} FoldKeys(entries: seq<ParsedLine>, k: string)
    ensures k in Fold(entries) <==> exists i | 0 <= i < |entries| :: HasKey(entries[i], k)
    decreases |entries|
  {
    if |entries| > 0 {
      var n := |entries| - 1;
      var init := entries[..n];
      FoldKeys(init, k);
      if exists i | 0 <= i < n :: HasKey(init[i], k) {
        var i :| 0 <= i < n && HasKey(init[i], k);
        assert init[i] == entries[i];
      }
      if exists i | 0 <= i < |entries| :: HasKey(entries[i], k) {
        var i :| 0 <= i < |entries| && HasKey(entries[i], k);
        if i < n {
          assert init[i] == entries[i];
        }
      }
    }
  }

  /** Last duplicate wins: a key's entry is the value of the last kept pair with that key. */
  lemma {:induction false} LastWins(entries: seq<ParsedLine>, i: nat)
    requires i < |entries| && entries[i].Some?
    requires forall j :: i < j < |entries| ==> !HasKey(entries[j], entries[i].value.0)
    ensures var kv := entries[i].value;
            kv.0 in Fold(entries) && Fold(entries)[kv.0] == kv.1
    decreases |entries|
  {
    var kv := entries[i].value;
    var n := |entries| - 1;
    var init := entries[..n];
    if i < n {
      assert init[i] == entries[i];
      assert forall j :: i < j < |init| ==> init[j] == entries[j];
      LastWins(init, i);
      assert !HasKey(entries[n], kv.0);
    }
  }

  /** The format table of an invocation's lines: every entry is the pair some line parses to. */
  function BuildMap(lines: seq<string>): (r: FormatsMap)
    ensures forall k :: k in r ==> exists i | 0 <= i < |lines| :: ParseLine(lines[i]) == Some((k, r[k]))
    ensures forall k :: k in r ==> Clean(r[k])
  {
    var entries := ParseLines(lines);
    var r := Fold(entries);
    assert forall k :: k in r ==> exists i | 0 <= i < |lines| :: ParseLine(lines[i]) == Some((k, r[k])) by {
      forall k | k in r ensures exists i | 0 <= i < |lines| :: ParseLine(lines[i]) == Some((k, r[k])) {
        var i :| 0 <= i < |entries| && entries[i] == Some((k, r[k]));
        assert ParseLine(lines[i]) == entries[i];
      }
    }
    r
  }

  // ---------------------------------------------------------------------------
  // One invocation (replaceGetFormatInvocation)
  // ---------------------------------------------------------------------------

  datatype TransformError =
    | NoInvocation   // the text holds no start marker
    | Unterminated   // no end marker follows the first start marker

  /** The invocation occupies `text[start..end]`, end marker included. */
  datatype Span = Span(start: nat, end: nat)

  /** Neither marker contains a double quote, and the start marker contains no `}`. */
  lemma MarkerCharacters()
    ensures '"' !in StartMarker && '}' !in StartMarker && '"' !in EndMarker
    ensures |StartMarker| > 0 && |EndMarker| > 0 && EndMarker[0] == '}' && StartMarker[0] == '{'
  {
    NoQuoteInStart();
    NoCloseInStart();
  }

  lemma NoQuoteInStart()
    ensures '"' !in StartMarker
  {
  }

  lemma NoCloseInStart()
    ensures '}' !in StartMarker
  {
  }

  /** Text without `{` holds no start marker. */
  lemma NoBraceNoMarker(x: string)
    requires '{' !in x
    ensures !Contains(x, StartMarker)
  {
    MarkerCharacters();
    NoFirstChar(x, StartMarker);
  }

  /** No start marker begins in `gap` ahead of the one that follows it. */
  predicate OpensAfter(gap: string) {
    FirstFrom(gap + StartMarker, StartMarker, 0, |gap|)
  }

  /** Text without `{` opens the invocation that follows it. */
  lemma OpensBehind(g: string)
    requires '{' !in g
    ensures OpensAfter(g)
  {
    MarkerCharacters();
    assert OccursAt(StartMarker, StartMarker, 0);
    PrependFirst(g, StartMarker, StartMarker, 0);
  }

  /**
   Whatever follows, the first start marker of `pre + StartMarker + rest` is
   the one after `pre` exactly when `pre` opens the invocation.
   */
  lemma OpensAfterExactly(pre: string, rest: string)
    ensures OpensAfter(pre) <==> FirstFrom(pre + StartMarker + rest, StartMarker, 0, |pre|)
  {
    if OpensAfter(pre) {
      FirstFromExtends(pre + StartMarker, rest, StartMarker, |pre|);
    }
    if FirstFrom(pre + StartMarker + rest, StartMarker, 0, |pre|) {
      FirstFromRestricts(pre + StartMarker, rest, StartMarker, |pre|);
    }
  }

  /**
   An invocation whose table holds no `}`, behind text that opens it, is
   located exactly: it runs from its start marker to the end of its end
   marker.
   */
  lemma LocateSpanAround(s: string, pre: string, inv: string, body: string, post: string)
    requires inv == StartMarker + body + EndMarker && s == pre + inv + post
    requires OpensAfter(pre) && '}' !in body
    ensures LocateSpan(s) == Ok(Span(|pre|, |pre| + |inv|))
  {
    InvocationSearches(s, pre, inv, body, post);
    LocateSpanFound(s, |pre|, |pre| + |inv| - |EndMarker|);
  }

  /** The two searches `LocateSpan` makes, on such text. */
  lemma InvocationSearches(s: string, pre: string, inv: string, body: string, post: string)
    requires inv == StartMarker + body + EndMarker && s == pre + inv + post
    requires OpensAfter(pre) && '}' !in body
    ensures FirstFrom(s, StartMarker, 0, |pre|)
    ensures |inv| >= |EndMarker| && FirstFrom(s, EndMarker, |pre|, |pre| + |inv| - |EndMarker|)
  {
    SplitAfterSecond(pre, StartMarker, body, EndMarker, post);
    FirstFromExtends(pre + StartMarker, body + EndMarker + post, StartMarker, |pre|);
    EndMarkerAfterBody(s, pre, inv, body, post);
  }

  /** Searching from an invocation's start marker, the first end marker is its own. */
  lemma EndMarkerAfterBody(s: string, pre: string, inv: string, body: string, post: string)
    requires inv == StartMarker + body + EndMarker && s == pre + inv + post
    requires '}' !in body
    ensures FirstFrom(s, EndMarker, |pre|, |pre| + |StartMarker| + |body|)
  {
    Nest(pre, StartMarker, body, EndMarker, post);
    MarkerCharacters();
    SearchAfter(s, pre, StartMarker, body, EndMarker, post);
  }

  /** `LocateSpan` in terms of the two searches it makes. */
  lemma LocateSpanFound(s: string, st: nat, e: nat)
    requires FirstFrom(s, StartMarker, 0, st) && FirstFrom(s, EndMarker, st, e)
    ensures LocateSpan(s) == Ok(Span(st, e + |EndMarker|))
  {
    IndexOfFromIsFirst(s, StartMarker, 0, st);
    IndexOfFromIsFirst(s, EndMarker, st, e);
  }

  /** An end marker at or after a start marker starts after all of it. */
  lemma EndAfterStartMarker(s: string, st: nat, p: nat)
    requires OccursAt(s, StartMarker, st) && OccursAt(s, EndMarker, p) && st <= p
    ensures st + |StartMarker| <= p
  {
    MarkerCharacters();
    assert s[p] == '}' by { assert s[p..p + |EndMarker|][0] == EndMarker[0]; }
    assert forall k :: st <= k < st + |StartMarker| ==> s[k] == StartMarker[k - st] by {
      assert s[st..st + |StartMarker|] == StartMarker;
    }
  }

  /** Lines 43-49: the span from the first start marker to the end of the first end marker after it. */
  function LocateSpan(s: string): (r: Result<Span, TransformError>)
    ensures r.Ok? ==>
      && FirstFrom(s, StartMarker, 0, r.value.start)
      && FirstFrom(s, EndMarker, r.value.start, r.value.end - |EndMarker|)
      && r.value.start + |StartMarker| + |EndMarker| <= r.value.end <= |s|
    ensures r == Err(NoInvocation) <==> !Contains(s, StartMarker)
  {
    match IndexOf(s, StartMarker)
    case None => Err(NoInvocation)
    case Some(st) =>
      match IndexOfFrom(s, EndMarker, st)
      case None => Err(Unterminated)
      case Some(e) =>
        EndAfterStartMarker(s, st, e);
        Ok(Span(st, e + |EndMarker|))
  }

  /** `LocateSpan` reports a missing end marker exactly when none follows the first start marker. */
  lemma LocateSpanUnterminated(s: string)
    ensures LocateSpan(s) == Err(Unterminated) <==>
      exists st | 0 <= st <= |s| :: FirstFrom(s, StartMarker, 0, st)
        && forall j :: st <= j ==> !OccursAt(s, EndMarker, j)
  {
    match IndexOf(s, StartMarker)
    case None =>
    case Some(st) =>
  }

  /** A resolved format as the template literal `"${currentLibFormat}"` prints it. */
  function Render(o: Option<string>): string {
    match o
    case None => "undefined"
    case Some(v) => v
  }

  function Quote(v: string): string {
    "\"" + v + "\""
  }

  lemma QuoteSplice(pre: string, v: string, post: string)
    ensures pre + Quote(v) + post == pre + ['"'] + v + ['"'] + post
  {
  }

  /**
   The format an invocation resolves to for `lib` (lines 51-78): it holds no
   quote or comma.
   */
  function Resolve(lib: string, invocation: string): (r: string)
    ensures forall k :: 0 <= k < |r| ==> r[k] !in Stripped
  {
    var m := BuildMap(Split(invocation, '\n'));
    var o := Cascade(lib, m);
    if o.Some? then
      var k :| k in FallbackChain(lib) && Entry(m, k) == o;
      assert Clean(m[k]);
      Render(o)
    else Render(o)
  }

  /**
   A resolved format is `undefined` or shorter than the invocation by at least
   a library name, since it is cut from one of the invocation's lines.
   */
  lemma ResolveShorter(lib: string, invocation: string)
    ensures Resolve(lib, invocation) == "undefined" || |Resolve(lib, invocation)| + 5 <= |invocation|
  {
    var m := BuildMap(Split(invocation, '\n'));
    var o := Cascade(lib, m);
    if o.Some? {
      var k :| k in FallbackChain(lib) && Entry(m, k) == o;
      MapValueFits(invocation, k);
    }
  }

  /** A value of the invocation's table is shorter than the invocation by a library name. */
  lemma MapValueFits(s: string, k: string)
    requires k in BuildMap(Split(s, '\n'))
    ensures |BuildMap(Split(s, '\n'))[k]| + 5 <= |s|
  {
    var lines := Split(s, '\n');
    var i :| 0 <= i < |lines| && ParseLine(lines[i]) == Some((k, BuildMap(lines)[k]));
  }

  /** A line shorter than every library name names none. */
  lemma ShortLineNoToken(line: string)
    requires |line| < 5
    ensures LibMatch(line) == None
  {
    assert forall k :: 0 <= k < |LibTokens| ==> |LibTokens[k]| >= 5;
  }

  /**
   An invocation none of whose lines names a library has an empty table, and
   the template literal prints the missing format as `undefined`.
   */
  lemma ResolveUnnamed(lib: string, inv: string)
    requires forall k :: 0 <= k < |Split(inv, '\n')| ==> LibMatch(Split(inv, '\n')[k]).None?
    ensures Resolve(lib, inv) == "undefined"
  {
    var lines := Split(inv, '\n');
    var entries := ParseLines(lines);
    forall key ensures key !in Fold(entries) {
      FoldKeys(entries, key);
    }
  }

  /**
   One pass of the loop (lines 42-80): an error exactly when the span cannot
   be located; otherwise the quoted format takes the place of the span, the
   text on both sides of it is kept, and the text gets shorter.
   */
  function Step(lib: string, s: string): (r: Result<string, TransformError>)
    ensures LocateSpan(s).Err? ==> r == Err(LocateSpan(s).error)
    ensures LocateSpan(s).Ok? ==>
              var sp := LocateSpan(s).value;
              r == Ok(s[..sp.start] + Quote(Resolve(lib, s[sp.start..sp.end])) + s[sp.end..])
    ensures r.Ok? ==> |r.value| < |s|
  {
    match LocateSpan(s)
    case Err(e) => Err(e)
    case Ok(sp) =>
      var invocation := s[sp.start..sp.end];
      var v := Quote(Resolve(lib, invocation));
      ResolveShorter(lib, invocation);
      ReplaceSpanAt(s, StartMarker, sp.start, sp.end, v);
      Ok(ReplaceFirst(s, invocation, v))
  }

  /**
   When the resolved format holds no start marker, a pass removes one start
   marker: the text before the span holds none, the quotes cannot take part
   in one, and the span itself held at least one.
   */
  lemma {:induction false} StepShrinksMarkers(lib: string, s: string)
    requires LocateSpan(s).Ok?
    requires !Contains(Resolve(lib, s[LocateSpan(s).value.start..LocateSpan(s).value.end]), StartMarker)
    ensures Step(lib, s).Ok?
    ensures Count(Step(lib, s).value, StartMarker) < Count(s, StartMarker)
  {
    var sp := LocateSpan(s).value;
    var v := Resolve(lib, s[sp.start..sp.end]);
    var pre, post := s[..sp.start], s[sp.end..];
    assert Step(lib, s).value == pre + Quote(v) + post;
    QuoteSplice(pre, v, post);
    MarkerCharacters();
    CountAfterSplice(s, StartMarker, sp.start, sp.end, '"', v);
  }

  // ---------------------------------------------------------------------------
  // The loop (replaceGetFormatStrings)
  // ---------------------------------------------------------------------------

  /**
   Lines 82-89: rewrite invocations until no start marker is left. Every pass
   shortens the text, so the loop ends; it fails only on an invocation that
   has no end marker.
   */
  function ReplaceAll(lib: string, s: string): (r: Result<string, TransformError>)
    ensures r.Ok? ==> !Contains(r.value, StartMarker)
    ensures !Contains(s, StartMarker) ==> r == Ok(s)
    ensures LocateSpan(s) == Err(Unterminated) ==> r == Err(Unterminated)
    ensures r.Err? ==> r == Err(Unterminated)
    decreases |s|
  {
    if !Contains(s, StartMarker) then Ok(s)
    else match Step(lib, s)
      case Err(e) => Err(e)
      case Ok(t) => ReplaceAll(lib, t)
  }

  /**
   The number of passes the loop makes on `s`: none once no start marker is
   left or when the span cannot be located, and one more for every pass that
   succeeds. Every pass shortens the text, so there are at most `|s|`.
   */
  function Passes(lib: string, s: string): (r: nat)
    ensures r <= |s|
    decreases |s|
  {
    if !Contains(s, StartMarker) then 0
    else match Step(lib, s)
      case Err(_) => 0
      case Ok(t) => 1 + Passes(lib, t)
  }

  /** A pass that succeeds is one of the loop's passes. */
  lemma PassesThen(lib: string, s: string, t: string)
    requires Step(lib, s) == Ok(t)
    ensures Passes(lib, s) == 1 + Passes(lib, t)
  {
    assert Contains(s, StartMarker);
  }

  /** Rewriting already rewritten text changes nothing. */
  lemma ReplaceAllIdempotent(lib: string, s: string)
    requires ReplaceAll(lib, s).Ok?
    ensures ReplaceAll(lib, ReplaceAll(lib, s).value) == ReplaceAll(lib, s)
  {
  }

  /** After a pass the loop carries on from the new text, whatever the format was. */
  lemma ReplaceAllContinues(lib: string, s: string)
    requires LocateSpan(s).Ok?
    ensures Step(lib, s).Ok? && ReplaceAll(lib, s) == ReplaceAll(lib, Step(lib, s).value)
  {
  }

  /** Quoting a format keeps the marker-free text in front of it sealed. */
  lemma QuotedSealed(g: string, v: string)
    requires !Contains(g, StartMarker) && !Contains(v, StartMarker)
    ensures Sealed(g + Quote(v), StartMarker)
  {
    MarkerCharacters();
    assert g + Quote(v) == g + ['"'] + v + ['"'];
    SealedAround(g, '"', v, StartMarker);
  }

  /**
   A snippet with a single invocation, whose table holds no `}` and whose
   resolved format holds no start marker, is rewritten to the text around the
   invocation with the quoted format in its place, whatever other braces the
   text around it holds.
   */
  lemma ReplaceSingleInvocation(lib: string, s: string, pre: string, inv: string, body: string, post: string)
    requires inv == StartMarker + body + EndMarker && s == pre + inv + post
    requires OpensAfter(pre) && '}' !in body
    requires !Contains(post, StartMarker) && !Contains(Resolve(lib, inv), StartMarker)
    ensures ReplaceAll(lib, s) == Ok(pre + Quote(Resolve(lib, inv)) + post)
    ensures Passes(lib, s) == 1
  {
    LocateSpanAround(s, pre, inv, body, post);
    Slices3(pre, inv, post);
    var v := Resolve(lib, inv);
    NoneAhead(pre, StartMarker);
    QuotedSealed(pre, v);
    ContainsSealed(pre + Quote(v), post, StartMarker);
    PassesThen(lib, s, pre + Quote(v) + post);
  }

  // ---------------------------------------------------------------------------
  // Snippets with several invocations
  // ---------------------------------------------------------------------------

  /** A stretch of snippet text: `gap`, then an invocation whose table is `body`. */
  datatype Piece = Piece(gap: string, body: string)

  function Invocation(body: string): string {
    StartMarker + body + EndMarker
  }

  /** The pieces one after another, then `tail`. */
  function Assemble(ps: seq<Piece>, tail: string): string
    decreases |ps|
  {
    if |ps| == 0 then tail
    else ps[0].gap + Invocation(ps[0].body) + Assemble(ps[1..], tail)
  }

  /** The same text with each invocation replaced by its quoted format for `lib`. */
  function Rewritten(lib: string, ps: seq<Piece>, tail: string): string
    decreases |ps|
  {
    if |ps| == 0 then tail
    else ps[0].gap + Quote(Resolve(lib, Invocation(ps[0].body))) + Rewritten(lib, ps[1..], tail)
  }

  /**
   The pieces are separate invocations: no start marker begins in a gap ahead
   of its invocation, no table holds `}`, no resolved format holds the start
   marker, and the tail holds none.
   */
  predicate Separated(lib: string, ps: seq<Piece>, tail: string) {
    && (forall i :: 0 <= i < |ps| ==> OpensAfter(ps[i].gap) && '}' !in ps[i].body)
    && (forall i :: 0 <= i < |ps| ==> !Contains(Resolve(lib, Invocation(ps[i].body)), StartMarker))
    && !Contains(tail, StartMarker)
  }

  /** A pass rewrites the first invocation and leaves all the text after it as it was. */
  lemma FirstPass(lib: string, ps: seq<Piece>, tail: string)
    requires |ps| > 0 && OpensAfter(ps[0].gap) && '}' !in ps[0].body
    ensures Step(lib, Assemble(ps, tail))
            == Ok(ps[0].gap + Quote(Resolve(lib, Invocation(ps[0].body))) + Assemble(ps[1..], tail))
  {
    PassAt(lib, ps[0].gap, ps[0].body, Assemble(ps[1..], tail));
  }

  /** A pass on `g + Invocation(body) + rest` where `g` opens the invocation. */
  lemma PassAt(lib: string, g: string, body: string, rest: string)
    requires OpensAfter(g) && '}' !in body
    ensures Step(lib, g + Invocation(body) + rest) == Ok(g + Quote(Resolve(lib, Invocation(body))) + rest)
  {
    var inv := Invocation(body);
    LocateSpanAround(g + inv + rest, g, inv, body, rest);
    Slices3(g, inv, rest);
  }

  /**
   Every invocation of a snippet is rewritten by one pass of its own, in the
   order they appear, and the text between them is kept: the loop makes as
   many passes as there are invocations.
   */
  lemma ReplaceEachInvocation(lib: string, ps: seq<Piece>, tail: string)
    requires Separated(lib, ps, tail)
    ensures ReplaceAll(lib, Assemble(ps, tail)) == Ok(Rewritten(lib, ps, tail))
    ensures Passes(lib, Assemble(ps, tail)) == |ps|
  {
    assert [] + Assemble(ps, tail) == Assemble(ps, tail);
    assert [] + Rewritten(lib, ps, tail) == Rewritten(lib, ps, tail);
    ReplaceEachAfter(lib, [], ps, tail);
    PassesEachAfter(lib, [], ps, tail);
  }

  /**
   The same behind text `done` that holds no start marker and cannot end
   one: the passes go on from where the last one stopped.
   */
  lemma {:induction false} ReplaceEachAfter(lib: string, done: string, ps: seq<Piece>, tail: string)
    requires Sealed(done, StartMarker) && Separated(lib, ps, tail)
    ensures ReplaceAll(lib, done + Assemble(ps, tail)) == Ok(done + Rewritten(lib, ps, tail))
    decreases |ps|
  {
    if |ps| == 0 {
      NothingAfter(lib, done, tail);
    } else {
      var g, body := ps[0].gap, ps[0].body;
      var v := Resolve(lib, Invocation(body));
      var rest := Assemble(ps[1..], tail);
      var r := Rewritten(lib, ps[1..], tail);
      var done' := done + g + Quote(v);
      SeparatedRest(lib, ps, tail);
      PassAfter(lib, done, g, body, rest);
      PassThen(lib, done + (g + Invocation(body) + rest), done' + rest);
      NoneAhead(done + g, StartMarker);
      QuotedSealed(done + g, v);
      ReplaceEachAfter(lib, done', ps[1..], tail);
      Regroup4(done, g, Quote(v), r);
      assert Assemble(ps, tail) == g + Invocation(body) + rest;
      assert Rewritten(lib, ps, tail) == g + Quote(v) + r;
    }
  }

  /** Behind sealed, already rewritten text, the loop makes one pass per invocation. */
  lemma {:induction false} PassesEachAfter(lib: string, done: string, ps: seq<Piece>, tail: string)
    requires Sealed(done, StartMarker) && Separated(lib, ps, tail)
    ensures Passes(lib, done + Assemble(ps, tail)) == |ps|
    decreases |ps|
  {
    if |ps| == 0 {
      ContainsSealed(done, tail, StartMarker);
    } else {
      var g, body := ps[0].gap, ps[0].body;
      var v := Resolve(lib, Invocation(body));
      var rest := Assemble(ps[1..], tail);
      var done' := done + g + Quote(v);
      SeparatedRest(lib, ps, tail);
      PassAfter(lib, done, g, body, rest);
      PassesThen(lib, done + (g + Invocation(body) + rest), done' + rest);
      NoneAhead(done + g, StartMarker);
      QuotedSealed(done + g, v);
      PassesEachAfter(lib, done', ps[1..], tail);
      assert Assemble(ps, tail) == g + Invocation(body) + rest;
    }
  }

  /** Behind `done`, a tail without invocations is left as it is. */
  lemma NothingAfter(lib: string, done: string, tail: string)
    requires Sealed(done, StartMarker) && !Contains(tail, StartMarker)
    ensures ReplaceAll(lib, done + Assemble([], tail)) == Ok(done + Rewritten(lib, [], tail))
  {
    ContainsSealed(done, tail, StartMarker);
  }

  /** What `Separated` says of the first piece, and that it holds of the others. */
  lemma SeparatedRest(lib: string, ps: seq<Piece>, tail: string)
    requires |ps| > 0 && Separated(lib, ps, tail)
    ensures OpensAfter(ps[0].gap) && '}' !in ps[0].body
    ensures !Contains(Resolve(lib, Invocation(ps[0].body)), StartMarker)
    ensures Separated(lib, ps[1..], tail)
  {
    assert forall i :: 0 <= i < |ps| - 1 ==> ps[1..][i] == ps[i + 1];
  }

  /** The pass on the first invocation behind `done`. */
  lemma PassAfter(lib: string, done: string, g: string, body: string, rest: string)
    requires Sealed(done, StartMarker) && OpensAfter(g) && '}' !in body
    ensures OpensAfter(done + g)
    ensures Step(lib, done + (g + Invocation(body) + rest))
            == Ok(done + g + Quote(Resolve(lib, Invocation(body))) + rest)
  {
    OpensAfterSealed(done, g);
    PassAt(lib, done + g, body, rest);
    Regroup4(done, g, Invocation(body), rest);
  }

  /** After a pass that succeeds, the loop goes on with its result. */
  lemma PassThen(lib: string, s: string, t: string)
    requires Step(lib, s) == Ok(t)
    ensures ReplaceAll(lib, s) == ReplaceAll(lib, t)
  {
    assert Contains(s, StartMarker);
  }

  /** Behind sealed text, a gap that opens an invocation still opens it. */
  lemma OpensAfterSealed(done: string, g: string)
    requires Sealed(done, StartMarker) && OpensAfter(g)
    ensures OpensAfter(done + g)
  {
    FirstSealed(done, g + StartMarker, StartMarker, |g|);
    Associative(done, g, StartMarker);
  }

  /** The loop of lines 82-89, with the same result as `ReplaceAll`. */
  method ReplaceGetFormatStrings(lib: string, source: string) returns (r: Result<string, TransformError>)
    ensures r == ReplaceAll(lib, source)
    ensures r.Ok? ==> !Contains(r.value, StartMarker)
    ensures !Contains(source, StartMarker) ==> r == Ok(source)
  {
    var processed := source;
    while Contains(processed, StartMarker)
      invariant ReplaceAll(lib, processed) == ReplaceAll(lib, source)
      decreases |processed|
    {
      var next := Step(lib, processed);
      if next.Err? {
        return next;
      }
      processed := next.value;
    }
    return Ok(processed);
  }
}

=== FILE: strings.dfy ===
/**
 The string primitives the rewriter is built from, given the meaning the
 JavaScript `String` methods it calls have: `indexOf`, `includes`, `replace`
 with a plain-string pattern, a global replace of single characters,
 `trim` and `split`. Strings are `seq<char>`.
 */
module Strings {
  import opened Wrappers

  /** `pat` occurs in `s` starting at index `i`. */
  predicate OccursAt(s: string, pat: string, i: int) {
    0 <= i && i + |pat| <= |s| && s[i..i + |pat|] == pat
  }

  /** `s.includes(pat)`. */
  predicate Contains(s: string, pat: string) {
    exists i | 0 <= i <= |s| :: OccursAt(s, pat, i)
  }

  /** `i` is the first index at or after `from` where `pat` occurs. */
  predicate FirstFrom(s: string, pat: string, from: int, i: int) {
    from <= i && OccursAt(s, pat, i) &&
    forall j :: from <= j < i ==> !OccursAt(s, pat, j)
  }

  /** `s.indexOf(pat, from)`, with `None` for JavaScript's -1. */
  function IndexOfFrom(s: string, pat: string, from: nat): (r: Option<nat>)
    ensures r.Some? ==> FirstFrom(s, pat, from, r.value)
    ensures r.None? ==> forall j :: from <= j ==> !OccursAt(s, pat, j)
    decreases |s| - from
  {
    if |s| < from + |pat| then None
    else if s[from..from + |pat|] == pat then Some(from)
    else IndexOfFrom(s, pat, from + 1)
  }

  /** `indexOf` finds the first occurrence from `from`, whichever way that occurrence was found. */
  lemma IndexOfFromIsFirst(s: string, pat: string, from: nat, i: nat)
    requires FirstFrom(s, pat, from, i)
    ensures IndexOfFrom(s, pat, from) == Some(i)
  {
    var r := IndexOfFrom(s, pat, from);
    assert OccursAt(s, pat, i);
    assert OccursAt(s, pat, r.value);
  }

  /** `s.indexOf(pat)`. */
  function IndexOf(s: string, pat: string): (r: Option<nat>)
    ensures r.Some? <==> Contains(s, pat)
    ensures r.Some? ==> FirstFrom(s, pat, 0, r.value)
  {
    IndexOfFrom(s, pat, 0)
  }

  /** `s.replace(pat, rep)` for a plain-string `pat`: only the first occurrence is replaced. */
  function ReplaceFirst(s: string, pat: string, rep: string): string {
    match IndexOf(s, pat)
    case None => s
    case Some(i) => s[..i] + rep + s[i + |pat|..]
  }

  /** Replacing the first occurrence splices `rep` in at that occurrence and keeps everything else. */
  lemma ReplaceFirstAt(s: string, pat: string, rep: string, i: nat)
    requires FirstFrom(s, pat, 0, i)
    ensures ReplaceFirst(s, pat, rep) == s[..i] + rep + s[i + |pat|..]
  {
    assert OccursAt(s, pat, i);
    var k := IndexOf(s, pat);
    assert OccursAt(s, pat, k.value);
  }

  /** An occurrence of a string is an occurrence of each of its prefixes. */
  lemma PrefixOccurs(s: string, pat: string, n: nat, j: int)
    requires n <= |pat| && OccursAt(s, pat, j)
    ensures OccursAt(s, pat[..n], j)
  {
    assert s[j..j + n] == s[j..j + |pat|][..n];
  }

  /**
   Replacing the text of a span that starts at the first occurrence of its
   own prefix `pre` replaces that very span.
   */
  lemma ReplaceSpanAt(s: string, pre: string, i: nat, e: nat, rep: string)
    requires FirstFrom(s, pre, 0, i) && i + |pre| <= e <= |s|
    ensures ReplaceFirst(s, s[i..e], rep) == s[..i] + rep + s[e..]
  {
    var span := s[i..e];
    assert span[..|pre|] == pre;
    forall j | 0 <= j < i ensures !OccursAt(s, span, j) {
      if OccursAt(s, span, j) {
        PrefixOccurs(s, span, |pre|, j);
      }
    }
    assert OccursAt(s, span, i);
    ReplaceFirstAt(s, span, rep, i);
  }

  /** The three pieces of a concatenation, sliced back out. */
  lemma Slices3(a: string, b: string, c: string)
    ensures (a + b + c)[..|a|] == a
    ensures (a + b + c)[|a|..|a| + |b|] == b
    ensures (a + b + c)[|a| + |b|..] == c
  {
  }

  /** A pattern whose first character does not occur in `pre` first occurs right after `pre`. */
  lemma FirstAfterPrefix(pre: string, pat: string, rest: string)
    requires |pat| > 0 && pat[0] !in pre
    ensures FirstFrom(pre + pat + rest, pat, 0, |pre|)
  {
    var s := pre + pat + rest;
    Slices3(pre, pat, rest);
    forall j | 0 <= j < |pre| ensures !OccursAt(s, pat, j) {
      assert s[j] == pre[j];
      if j + |pat| <= |s| {
        assert s[j..j + |pat|][0] == s[j];
      }
    }
  }

  /** Searching from the start of `a` in `pre + a + body + b + post`, `b` is found right after `body`. */
  lemma SearchAfter(s: string, pre: string, a: string, body: string, b: string, post: string)
    requires s == pre + a + body + b + post
    requires |b| > 0 && b[0] !in a && b[0] !in body
    ensures FirstFrom(s, b, |pre|, |pre| + |a| + |body|)
  {
    Regroup5(pre, a, body, b, post);
    assert b[0] !in a + body;
    FirstAfterGap(pre, a + body, b, post);
  }

  /** Searching from the end of `pre`, a pattern whose first character is not in `mid` is found right after `mid`. */
  lemma FirstAfterGap(pre: string, mid: string, pat: string, post: string)
    requires |pat| > 0 && pat[0] !in mid
    ensures FirstFrom(pre + mid + pat + post, pat, |pre|, |pre| + |mid|)
  {
    var s := pre + mid + (pat + post);
    assert s == pre + mid + pat + post;
    Slices3(pre, mid, pat + post);
    assert s[|pre| + |mid|..][..|pat|] == pat;
    forall j | |pre| <= j < |pre| + |mid| ensures !OccursAt(s, pat, j) {
      assert s[j] == mid[j - |pre|];
      assert mid[j - |pre|] in mid;
      if j + |pat| <= |s| {
        assert s[j..j + |pat|][0] == s[j];
      }
    }
  }

  /** Without an occurrence `replace` leaves the string alone. */
  lemma ReplaceFirstAbsent(s: string, pat: string, rep: string)
    requires !Contains(s, pat)
    ensures ReplaceFirst(s, pat, rep) == s
  {
  }

  /** `replace` changes the length by what the replacement adds over the pattern, or not at all. */
  lemma ReplaceFirstLength(s: string, pat: string, rep: string)
    ensures |ReplaceFirst(s, pat, rep)| == if Contains(s, pat) then |s| - |pat| + |rep| else |s|
  {
    match IndexOf(s, pat)
    case None =>
    case Some(i) => assert OccursAt(s, pat, i);
  }

  /** `s.replace(/(c1|c2|...)/g, '')`: every character of `cs` is deleted, the others kept in order. */
  function RemoveChars(s: string, cs: set<char>): (r: string)
    ensures |r| <= |s|
    ensures forall k :: 0 <= k < |r| ==> r[k] !in cs && r[k] in s
    ensures (forall k :: 0 <= k < |s| ==> s[k] !in cs) ==> r == s
    decreases |s|
  {
    if |s| == 0 then []
    else (if s[0] in cs then [] else [s[0]]) + RemoveChars(s[1..], cs)
  }

  /** Deleting characters works piece by piece. */
  lemma {:induction false} RemoveCharsConcat(a: string, b: string, cs: set<char>)
    ensures RemoveChars(a + b, cs) == RemoveChars(a, cs) + RemoveChars(b, cs)
    decreases |a|
  {
    if |a| == 0 {
      assert a + b == b;
    } else {
      var h := if a[0] in cs then [] else [a[0]];
      assert (a + b)[0] == a[0] && (a + b)[1..] == a[1..] + b;
      RemoveCharsCons(a + b, cs);
      RemoveCharsCons(a, cs);
      RemoveCharsConcat(a[1..], b, cs);
      Associative(h, RemoveChars(a[1..], cs), RemoveChars(b, cs));
    }
  }

  /** One step of `RemoveChars`: the first character is kept or dropped. */
  lemma RemoveCharsCons(s: string, cs: set<char>)
    requires |s| > 0
    ensures RemoveChars(s, cs) == (if s[0] in cs then [] else [s[0]]) + RemoveChars(s[1..], cs)
  {
  }

  /**
   The characters JavaScript's `trim` removes: tab, line feed, vertical tab,
   form feed, carriage return, the space separators of Unicode category Zs
   (space, no-break space, U+1680, U+2000 to U+200A, U+202F, U+205F, U+3000),
   the line and paragraph separators and the byte-order mark.
   */
  predicate IsWhitespace(c: char) {
    c == ' ' || c == '\t' || c == '\n' || c == 11 as char || c == 12 as char || c == '\r'
    || c == 0xA0 as char || c == 0x1680 as char || (0x2000 as char <= c <= 0x200A as char)
    || c == 0x2028 as char || c == 0x2029 as char || c == 0x202F as char || c == 0x205F as char
    || c == 0x3000 as char || c == 0xFEFF as char
  }

  /** Drops leading whitespace. */
  function TrimStart(s: string): (r: string)
    ensures |r| <= |s| && r == s[|s| - |r|..]
    ensures forall k :: 0 <= k < |s| - |r| ==> IsWhitespace(s[k])
    ensures r == [] || !IsWhitespace(r[0])
    decreases |s|
  {
    if |s| > 0 && IsWhitespace(s[0]) then TrimStart(s[1..]) else s
  }

  /** Drops trailing whitespace. */
  function TrimEnd(s: string): (r: string)
    ensures |r| <= |s| && r == s[..|r|]
    ensures forall k :: |r| <= k < |s| ==> IsWhitespace(s[k])
    ensures r == [] || !IsWhitespace(r[|r| - 1])
    decreases |s|
  {
    if |s| > 0 && IsWhitespace(s[|s| - 1]) then TrimEnd(s[..|s| - 1]) else s
  }

  /** `s.trim()`: the longest middle piece of `s` with no whitespace at either end. */
  function Trim(s: string): (r: string)
    ensures exists i, j :: TrimmedAt(s, r, i, j)
    ensures |r| <= |s|
    ensures forall k :: 0 <= k < |r| ==> r[k] in s
    ensures r == [] || (!IsWhitespace(r[0]) && !IsWhitespace(r[|r| - 1]))
  {
    var t := TrimStart(s);
    var r := TrimEnd(t);
    TrimBounds(s, t, r);
    r
  }

  /** Trimming both ends keeps a slice with only whitespace cut off either side. */
  lemma TrimBounds(s: string, t: string, r: string)
    requires |t| <= |s| && t == s[|s| - |t|..]
    requires forall k :: 0 <= k < |s| - |t| ==> IsWhitespace(s[k])
    requires |r| <= |t| && r == t[..|r|]
    requires forall k :: |r| <= k < |t| ==> IsWhitespace(t[k])
    ensures exists i, j :: TrimmedAt(s, r, i, j)
    ensures forall k :: 0 <= k < |r| ==> r[k] in s
  {
    var i := |s| - |t|;
    var j := i + |r|;
    assert r == s[i..j];
    forall k | 0 <= k < |r| ensures r[k] in s {
      assert r[k] == s[i + k];
    }
    assert forall k :: j <= k < |s| ==> IsWhitespace(s[k]) by {
      forall k | j <= k < |s| ensures IsWhitespace(s[k]) {
        assert s[k] == t[k - i];
      }
    }
    assert TrimmedAt(s, r, i, j);
  }

  /** `r` is `s[i..j]` and only whitespace lies outside it. */
  predicate TrimmedAt(s: string, r: string, i: int, j: int) {
    && 0 <= i <= j <= |s| && r == s[i..j]
    && (forall k :: 0 <= k < i ==> IsWhitespace(s[k]))
    && (forall k :: j <= k < |s| ==> IsWhitespace(s[k]))
  }

  predicate AllWhitespace(s: string) {
    forall k :: 0 <= k < |s| ==> IsWhitespace(s[k])
  }

  /** Leading whitespace in front of `x` makes no difference to `TrimStart`. */
  lemma {:induction false} TrimStartPadded(w: string, x: string)
    requires AllWhitespace(w)
    ensures TrimStart(w + x) == TrimStart(x)
    decreases |w|
  {
    if |w| > 0 {
      assert (w + x)[0] == w[0];
      assert (w + x)[1..] == w[1..] + x;
      TrimStartPadded(w[1..], x);
    } else {
      assert w + x == x;
    }
  }

  /** Trailing whitespace after `x` makes no difference to `TrimEnd`. */
  lemma {:induction false} TrimEndPadded(x: string, w: string)
    requires AllWhitespace(w)
    ensures TrimEnd(x + w) == TrimEnd(x)
    decreases |w|
  {
    if |w| > 0 {
      var n := |x + w| - 1;
      assert (x + w)[n] == w[|w| - 1];
      assert (x + w)[..n] == x + w[..|w| - 1];
      TrimEndPadded(x, w[..|w| - 1]);
    } else {
      assert x + w == x;
    }
  }

  /** Trimming whitespace padding off a piece with no whitespace at its ends gives the piece. */
  lemma TrimPadded(w1: string, x: string, w2: string)
    requires AllWhitespace(w1) && AllWhitespace(w2)
    requires x == [] || (!IsWhitespace(x[0]) && !IsWhitespace(x[|x| - 1]))
    ensures Trim(w1 + x + w2) == x
  {
    assert w1 + x + w2 == w1 + (x + w2);
    TrimStartPadded(w1, x + w2);
    if x == [] {
      assert x + w2 == w2 + [];
      TrimStartPadded(w2, []);
      assert TrimStart(w1 + x + w2) == [];
    } else {
      assert (x + w2)[0] == x[0];
      assert TrimStart(x + w2) == x + w2;
      TrimEndPadded(x, w2);
      assert TrimEnd(x) == x;
    }
  }

  /** Joins lines with `sep` between consecutive ones; the inverse of `Split`. */
  function Join(lines: seq<string>, sep: char): string
    decreases |lines|
  {
    if |lines| == 0 then ""
    else if |lines| == 1 then lines[0]
    else lines[0] + [sep] + Join(lines[1..], sep)
  }

  lemma JoinCons(x: string, rest: seq<string>, sep: char)
    requires |rest| >= 1
    ensures Join([x] + rest, sep) == x + [sep] + Join(rest, sep)
  {
    assert ([x] + rest)[1..] == rest;
  }

  /** `s.split(sep)` for a one-character separator: never empty, and no piece holds `sep`. */
  function Split(s: string, sep: char): (r: seq<string>)
    ensures |r| >= 1
    ensures forall k :: 0 <= k < |r| ==> sep !in r[k]
    ensures forall k :: 0 <= k < |r| ==> |r[k]| <= |s|
    decreases |s|
  {
    if |s| == 0 then [""]
    else
      var rest := Split(s[1..], sep);
      if s[0] == sep then [""] + rest
      else [[s[0]] + rest[0]] + rest[1..]
  }

  /** Text without the separator is a single piece. */
  lemma {:induction false} SplitNoSep(s: string, sep: char)
    requires sep !in s
    ensures Split(s, sep) == [s]
    decreases |s|
  {
    if |s| > 0 {
      assert sep !in s[1..] by { assert forall k :: 0 <= k < |s[1..]| ==> s[1..][k] == s[k + 1]; }
      SplitNoSep(s[1..], sep);
      assert [s[0]] + s[1..] == s;
    }
  }

  /** Splitting loses nothing: joining the pieces gives back the text. */
  lemma {:induction false} JoinSplit(s: string, sep: char)
    ensures Join(Split(s, sep), sep) == s
    decreases |s|
  {
    if |s| > 0 {
      JoinSplit(s[1..], sep);
      var rest := Split(s[1..], sep);
      if s[0] == sep {
        assert Split(s, sep) == [""] + rest;
        assert ([""] + rest)[1..] == rest;
      } else {
        var r := Split(s, sep);
        assert r[0] == [s[0]] + rest[0];
        assert r[1..] == rest[1..];
        if |rest| == 1 {
          assert Join(rest, sep) == rest[0];
        } else {
          assert Join(rest, sep) == rest[0] + [sep] + Join(rest[1..], sep);
        }
      }
    }
  }

  /** Splitting joined lines recovers the lines, provided none of them holds `sep`. */
  lemma {:induction false} SplitJoin(lines: seq<string>, sep: char)
    requires |lines| >= 1
    requires forall k :: 0 <= k < |lines| ==> sep !in lines[k]
    ensures Split(Join(lines, sep), sep) == lines
    decreases |lines|, |lines[0]|
  {
    if |lines[0]| == 0 {
      if |lines| > 1 {
        var tail := Join(lines[1..], sep);
        assert Join(lines, sep) == [sep] + tail;
        assert ([sep] + tail)[1..] == tail;
        SplitJoin(lines[1..], sep);
        assert lines == [""] + lines[1..];
      }
    } else {
      var c := lines[0][0];
      var shorter := [lines[0][1..]] + lines[1..];
      assert shorter[1..] == lines[1..];
      assert Join(shorter, sep) == Join(lines, sep)[1..] by {
        if |lines| > 1 {
          assert Join(lines, sep) == [c] + (lines[0][1..] + [sep] + Join(lines[1..], sep));
        } else {
          assert Join(lines, sep) == [c] + lines[0][1..];
        }
      }
      assert forall k :: 0 <= k < |shorter| ==> sep !in shorter[k] by {
        forall k | 0 <= k < |shorter| ensures sep !in shorter[k] {
          if k == 0 {
            assert forall x :: x in lines[0][1..] ==> x in lines[0];
          } else {
            assert shorter[k] == lines[k];
          }
        }
      }
      SplitJoin(shorter, sep);
      assert c != sep by { assert c in lines[0]; }
      assert lines[0] == [c] + lines[0][1..];
      assert lines == [lines[0]] + lines[1..];
    }
  }

  /** The number of (possibly overlapping) occurrences of `pat` in `s`. */
  function Count(s: string, pat: string): nat
    decreases |s|
  {
    if |s| < |pat| then 0
    else (if s[..|pat|] == pat then 1 else 0) + (if |s| == 0 then 0 else Count(s[1..], pat))
  }

  /** An occurrence in `s[1..]` is an occurrence in `s` one place further on. */
  lemma OccursAtTail(s: string, pat: string, j: nat)
    requires |s| > 0
    ensures OccursAt(s[1..], pat, j) <==> OccursAt(s, pat, j + 1)
  {
    if j + |pat| <= |s| - 1 {
      assert s[1..][j..j + |pat|] == s[j + 1..j + 1 + |pat|];
    }
  }

  /** The count is zero exactly when `pat` does not occur. */
  lemma {:induction false} CountZero(s: string, pat: string)
    requires |pat| > 0
    ensures Count(s, pat) == 0 <==> !Contains(s, pat)
    decreases |s|
  {
    if |s| < |pat| {
      forall i | 0 <= i <= |s| ensures !OccursAt(s, pat, i) { }
    } else {
      CountZero(s[1..], pat);
      if s[..|pat|] == pat {
        assert OccursAt(s, pat, 0);
      } else {
        assert !OccursAt(s, pat, 0);
        assert Contains(s, pat) ==> Contains(s[1..], pat) by {
          if Contains(s, pat) {
            var i :| 0 <= i <= |s| && OccursAt(s, pat, i);
            OccursAtTail(s, pat, i - 1);
          }
        }
        assert Contains(s[1..], pat) ==> Contains(s, pat) by {
          if Contains(s[1..], pat) {
            var i :| 0 <= i <= |s[1..]| && OccursAt(s[1..], pat, i);
            OccursAtTail(s, pat, i);
          }
        }
      }
    }
  }

  /** Occurrences in either half are occurrences in the whole, so the count can only grow. */
  lemma {:induction false} CountConcatAtLeast(a: string, b: string, pat: string)
    requires |pat| > 0
    ensures Count(a + b, pat) >= Count(a, pat) + Count(b, pat)
    decreases |a|
  {
    if |a| == 0 {
      assert a + b == b;
    } else if |a + b| >= |pat| {
      assert (a + b)[1..] == a[1..] + b;
      CountConcatAtLeast(a[1..], b, pat);
      if |a| >= |pat| {
        assert (a + b)[..|pat|] == a[..|pat|];
      }
    }
  }

  /** A separator character that `pat` does not contain splits the count exactly. */
  lemma {:induction false} CountSeparated(a: string, q: char, b: string, pat: string)
    requires |pat| > 0 && q !in pat
    ensures Count(a + [q] + b, pat) == Count(a, pat) + Count(b, pat)
    decreases |a|
  {
    var w := a + [q] + b;
    if |a| == 0 {
      assert w == [q] + b;
      if |w| >= |pat| {
        assert w[0] == q;
        assert w[..|pat|] != pat by { assert w[..|pat|][0] == q; }
        assert w[1..] == b;
      }
    } else if |w| >= |pat| {
      assert w[1..] == a[1..] + [q] + b;
      CountSeparated(a[1..], q, b, pat);
      if |a| >= |pat| {
        assert w[..|pat|] == a[..|pat|];
      } else {
        assert w[..|pat|] != pat by { assert w[..|pat|][|a|] == q; }
      }
    }
  }

  /**
   Splicing `[q] + v + [q]` over a span that starts at the first occurrence
   of `pat` removes at least that occurrence, when neither `v` nor `q` can be
   part of a new one.
   */
  lemma CountAfterSplice(s: string, pat: string, i: nat, e: nat, q: char, v: string)
    requires |pat| > 0 && q !in pat && !Contains(v, pat)
    requires FirstFrom(s, pat, 0, i) && i + |pat| <= e <= |s|
    ensures Count(s[..i] + [q] + v + [q] + s[e..], pat) < Count(s, pat)
  {
    var pre, post := s[..i], s[e..];
    assert pre + [q] + v + [q] + post == pre + [q] + (v + [q] + post);
    CountSeparated(pre, q, v + [q] + post, pat);
    CountSeparated(v, q, post, pat);
    CountNoneBefore(s, pat, i);
    CountZero(v, pat);
    CountPastOccurrence(s, pat, i, e);
  }

  /** Nothing before the first occurrence counts. */
  lemma CountNoneBefore(s: string, pat: string, i: nat)
    requires |pat| > 0 && FirstFrom(s, pat, 0, i)
    ensures Count(s[..i], pat) == 0
  {
    var pre := s[..i];
    forall j | 0 <= j <= |pre| ensures !OccursAt(pre, pat, j) {
      if j + |pat| <= |pre| {
        assert !OccursAt(s, pat, j);
        assert pre[j..j + |pat|] == s[j..j + |pat|];
      }
    }
    CountZero(pre, pat);
  }

  /** Nothing before the first occurrence holds the pattern. */
  lemma NoneBeforeFirst(s: string, pat: string, i: nat)
    requires |pat| > 0 && FirstFrom(s, pat, 0, i)
    ensures !Contains(s[..i], pat)
  {
    CountNoneBefore(s, pat, i);
    CountZero(s[..i], pat);
  }

  /** When the first occurrence in `g + pat` is the appended one, `g` holds none. */
  lemma NoneAhead(g: string, pat: string)
    requires |pat| > 0 && FirstFrom(g + pat, pat, 0, |g|)
    ensures !Contains(g, pat)
  {
    NoneBeforeFirst(g + pat, pat, |g|);
    assert (g + pat)[..|g|] == g;
  }

  /** Cutting the text after an occurrence loses at least that occurrence. */
  lemma CountPastOccurrence(s: string, pat: string, i: nat, e: nat)
    requires |pat| > 0 && OccursAt(s, pat, i) && i + |pat| <= e <= |s|
    ensures Count(s, pat) >= 1 + Count(s[e..], pat)
  {
    var head := s[..e];
    assert s == head + s[e..];
    CountConcatAtLeast(head, s[e..], pat);
    assert head[i..i + |pat|] == s[i..i + |pat|];
    assert OccursAt(head, pat, i);
    CountZero(head, pat);
  }
  // ---------------------------------------------------------------------------
  // Searching behind a prefix
  // ---------------------------------------------------------------------------

  /** Occurrences in `s` are occurrences in `q + s`, shifted by `|q|`. */
  lemma OccursShift(q: string, s: string, pat: string, j: int)
    requires j >= 0
    ensures OccursAt(q + s, pat, |q| + j) <==> OccursAt(s, pat, j)
  {
    if j + |pat| <= |s| {
      assert (q + s)[|q| + j..|q| + j + |pat|] == s[j..j + |pat|];
    }
  }

  /** A search result moved `d` places on. */
  function Shift(o: Option<nat>, d: nat): Option<nat> {
    match o
    case None => None
    case Some(i) => Some(d + i)
  }

  /** With no occurrence from `from` on, the search reports none. */
  lemma IndexOfFromAbsent(s: string, pat: string, from: nat)
    requires forall j :: from <= j ==> !OccursAt(s, pat, j)
    ensures IndexOfFrom(s, pat, from) == None
  {
  }

  /** No occurrence from `from` in `s` means none from `|q| + from` in `q + s`. */
  lemma AbsentShift(q: string, s: string, pat: string, from: nat)
    requires forall j :: from <= j ==> !OccursAt(s, pat, j)
    ensures forall j :: |q| + from <= j ==> !OccursAt(q + s, pat, j)
  {
    forall j | |q| + from <= j ensures !OccursAt(q + s, pat, j) {
      OccursShift(q, s, pat, j - |q|);
    }
  }

  /** What follows `q` holds no occurrence when `q + s` holds none. */
  lemma AbsentBehind(q: string, s: string, pat: string)
    requires !Contains(q + s, pat)
    ensures forall j :: 0 <= j ==> !OccursAt(s, pat, j)
  {
    forall j | 0 <= j ensures !OccursAt(s, pat, j) {
      OccursShift(q, s, pat, j);
      assert !OccursAt(q + s, pat, |q| + j);
    }
  }

  /** A pattern that starts with a character `q` does not hold is first found where it was in `s`. */
  lemma PrependFirst(q: string, s: string, pat: string, st: nat)
    requires |pat| > 0 && pat[0] !in q && FirstFrom(s, pat, 0, st)
    ensures FirstFrom(q + s, pat, 0, |q| + st)
  {
    OccursShift(q, s, pat, st);
    forall j | 0 <= j < |q| + st ensures !OccursAt(q + s, pat, j) {
      if j < |q| {
        assert (q + s)[j] == q[j];
        if j + |pat| <= |q + s| {
          assert (q + s)[j..j + |pat|][0] == (q + s)[j];
        }
      } else {
        OccursShift(q, s, pat, j - |q|);
      }
    }
  }

  /** A first occurrence in `s` is the first occurrence in `q + s`, `|q|` places on. */
  lemma FirstFromShift(q: string, s: string, pat: string, from: nat, i: nat)
    requires FirstFrom(s, pat, from, i)
    ensures FirstFrom(q + s, pat, |q| + from, |q| + i)
  {
    OccursShift(q, s, pat, i);
    forall j | |q| + from <= j < |q| + i ensures !OccursAt(q + s, pat, j) {
      OccursShift(q, s, pat, j - |q|);
    }
  }

  /**
   `p` holds no occurrence of `pat` and ends in a character `pat` does not
   contain, so no occurrence of `pat` in `p + x` can start inside `p`.
   */
  predicate Sealed(p: string, pat: string) {
    !Contains(p, pat) && (p == [] || p[|p| - 1] !in pat)
  }

  lemma SealedNoOccurrence(p: string, x: string, pat: string, j: int)
    requires Sealed(p, pat) && 0 <= j < |p|
    ensures !OccursAt(p + x, pat, j)
  {
    if j + |pat| <= |p + x| {
      if j + |pat| <= |p| {
        assert (p + x)[j..j + |pat|] == p[j..j + |pat|];
        assert !OccursAt(p, pat, j);
      } else {
        var k := |p| - 1 - j;
        assert (p + x)[j..j + |pat|][k] == p[|p| - 1];
        assert pat[k] in pat;
        assert (p + x)[j..j + |pat|] != pat;
      }
    }
  }

  /** Behind sealed text the first occurrence is the one in `x`, `|p|` places on. */
  lemma IndexOfSealed(p: string, x: string, pat: string)
    requires Sealed(p, pat)
    ensures IndexOf(p + x, pat) == Shift(IndexOf(x, pat), |p|)
  {
    match IndexOf(x, pat)
    case Some(i) =>
      FirstSealed(p, x, pat, i);
      IndexOfFromIsFirst(p + x, pat, 0, |p| + i);
    case None =>
      AbsentSealed(p, x, pat);
      IndexOfFromAbsent(p + x, pat, 0);
  }

  /** Behind sealed text, `x` without an occurrence gives none at all. */
  lemma AbsentSealed(p: string, x: string, pat: string)
    requires Sealed(p, pat) && forall j :: 0 <= j ==> !OccursAt(x, pat, j)
    ensures forall j :: 0 <= j ==> !OccursAt(p + x, pat, j)
  {
    AbsentShift(p, x, pat, 0);
    forall j | 0 <= j < |p| ensures !OccursAt(p + x, pat, j) {
      SealedNoOccurrence(p, x, pat, j);
    }
  }

  /** Behind sealed text the first occurrence is the first occurrence in the rest, `|p|` places on. */
  lemma FirstSealed(p: string, x: string, pat: string, i: nat)
    requires Sealed(p, pat) && FirstFrom(x, pat, 0, i)
    ensures FirstFrom(p + x, pat, 0, |p| + i)
  {
    FirstFromShift(p, x, pat, 0, i);
    forall j | 0 <= j < |p| ensures !OccursAt(p + x, pat, j) {
      SealedNoOccurrence(p, x, pat, j);
    }
  }

  /** Sealed text in front neither adds nor hides an occurrence. */
  lemma ContainsSealed(p: string, x: string, pat: string)
    requires Sealed(p, pat)
    ensures Contains(p + x, pat) <==> Contains(x, pat)
  {
    IndexOfSealed(p, x, pat);
  }

  /**
   Text without `pat`, followed by a piece without `pat` between two copies
   of a character `pat` does not contain, is sealed.
   */
  lemma SealedAround(g: string, q: char, v: string, pat: string)
    requires |pat| > 0 && q !in pat && !Contains(g, pat) && !Contains(v, pat)
    ensures Sealed(g + [q] + v + [q], pat)
  {
    var w := g + [q] + v + [q];
    assert w == g + [q] + (v + [q]);
    assert v + [q] == v + [q] + [];
    CountSeparated(g, q, v + [q], pat);
    CountSeparated(v, q, [], pat);
    CountZero(g, pat);
    CountZero(v, pat);
    CountZero(w, pat);
  }

  /** A first occurrence in `a` stays the first one when text is appended. */
  lemma FirstFromExtends(a: string, b: string, pat: string, i: nat)
    requires FirstFrom(a, pat, 0, i)
    ensures FirstFrom(a + b, pat, 0, i)
  {
    assert OccursAt(a, pat, i);
    assert (a + b)[i..i + |pat|] == a[i..i + |pat|];
    forall j | 0 <= j < i ensures !OccursAt(a + b, pat, j) {
      assert !OccursAt(a, pat, j);
      assert j + |pat| <= |a|;
      assert (a + b)[j..j + |pat|] == a[j..j + |pat|];
    }
  }

  /** A first occurrence in `a + b` that lies inside `a` is the first occurrence in `a`. */
  lemma FirstFromRestricts(a: string, b: string, pat: string, i: nat)
    requires FirstFrom(a + b, pat, 0, i) && i + |pat| <= |a|
    ensures FirstFrom(a, pat, 0, i)
  {
    assert (a + b)[i..i + |pat|] == a[i..i + |pat|];
    forall j | 0 <= j < i ensures !OccursAt(a, pat, j) {
      assert !OccursAt(a + b, pat, j);
      assert (a + b)[j..j + |pat|] == a[j..j + |pat|];
    }
  }

  /** Text that lacks the first character of `pat` holds no `pat`. */
  lemma NoFirstChar(x: string, pat: string)
    requires |pat| > 0 && pat[0] !in x
    ensures !Contains(x, pat)
  {
    forall j | 0 <= j <= |x| ensures !OccursAt(x, pat, j) {
      if j + |pat| <= |x| {
        assert x[j..j + |pat|][0] == x[j];
      }
    }
  }

  /** When `a` lacks the first character of `pat` and `b` is shorter than `pat`, `a + b` holds no `pat`. */
  lemma NoRoomAfter(a: string, b: string, pat: string)
    requires |pat| > 0 && pat[0] !in a && |b| < |pat|
    ensures !Contains(a + b, pat)
  {
    forall j | 0 <= j <= |a + b| ensures !OccursAt(a + b, pat, j) {
      if j + |pat| <= |a + b| {
        assert (a + b)[j..j + |pat|][0] == a[j];
        assert a[j] in a;
      }
    }
  }

  // ---------------------------------------------------------------------------
  // Concatenation identities the proofs regroup text with
  // ---------------------------------------------------------------------------

  /** Concatenation is associative. */
  lemma Associative(a: string, b: string, c: string)
    ensures a + b + c == a + (b + c)
  {
  }

  /** Two regroupings of five pieces. */
  lemma Regroup5(a: string, b: string, c: string, d: string, e: string)
    ensures a + b + c + d + e == a + b + (c + d + e)
    ensures a + b + c + d + e == a + (b + c) + d + e
  {
  }

  /** Four pieces regrouped around the second. */
  lemma SplitAfterSecond(a: string, b: string, c: string, d: string, e: string)
    ensures a + (b + c + d) + e == (a + b) + (c + d + e)
  {
  }

  /** Three middle pieces written as one. */
  lemma Nest(a: string, b: string, c: string, d: string, e: string)
    ensures a + (b + c + d) + e == a + b + c + d + e
  {
  }

  /** Three pieces behind a fourth, taken apart. */
  lemma Regroup4(a: string, b: string, c: string, d: string)
    ensures a + (b + c + d) == a + b + c + d
  {
  }

  /** The last five of seven pieces taken together. */
  lemma GroupLast5(a: string, b: string, c: string, d: string, e: string, f: string, g: string)
    ensures a + b + c + d + e + f + g == a + b + (c + d + e + f + g)
  {
  }

  /** The first and last of three pieces, sliced back out and put together. */
  lemma DropMiddle(a: string, b: string, c: string)
    ensures (a + b + c)[..|a|] + (a + b + c)[|a| + |b|..] == a + c
  {
    assert (a + b + c)[..|a|] == a;
    assert (a + b + c)[|a| + |b|..] == c;
  }

  /** Moving a one-character piece `c` out of a group and back. */
  lemma RegroupAround(a: string, b: string, c: string, d: string, e: string, f: string)
    ensures a + (b + c + d + e + f) == (a + b) + c + (d + e + f)
    ensures (a + b) + (d + e + f) == (a + b + d) + e + f
  {
  }

  /** A middle group of four split after its first piece, and the two outer pieces joined again once its inner two are cut out. */
  lemma CutAround(a: string, b: string, c: string, d: string, e: string, f: string)
    ensures a + (b + c + d + e) + f == (a + b) + c + (d + (e + f))
    ensures (a + b) + (e + f) == a + (b + e) + f
  {
  }

  /** Text cut after its first `k` characters. */
  lemma CutFront(a: string, b: string, k: nat)
    requires k <= |a|
    ensures a + b == a[..k] + (a[k..] + b)
  {
    assert a == a[..k] + a[k..];
  }

  /** Five pieces behind a first, regrouped so that the sixth stands alone before the last. */
  lemma LineBreakAfter(a: string, b: string, c: string, d: string, e: string, f: string, g: string)
    ensures a + (b + c + d + e + f) + g == (a + b + c + d + e) + f + g
  {
  }

  /** Five pieces with the middle one standing alone, and the first two joined to the last. */
  lemma CutToken(a: string, b: string, c: string, d: string, e: string)
    ensures a + b + c + d + e == (a + b) + c + (d + e)
    ensures (a + b) + e == a + (b + e)
  {
  }

  /** Text wrapped in `q` on both sides, behind `g`: the first `q` joins `g`, the second the last piece. */
  lemma WrapAfter(g: string, q: string, p: string, m: string)
    ensures g + (q + (p + m) + q) == (g + q) + (p + (m + q))
  {
  }

  /** Empty text on both sides changes nothing. */
  lemma EmptyAround(x: string)
    ensures "" + x + "" == x
  {
  }
}

=== FILE: wrappers.dfy ===
/** Option and Result, the two failure-aware datatypes the model uses. */
module Wrappers {

  /** A value that may be absent; `None` stands for JavaScript's `undefined`. */
  datatype Option<+T> = None | Some(value: T)

  /** Either a value or an error. */
  datatype Result<+R, +E> = Ok(value: R) | Err(error: E)
}
